=== FILE: README.md ===
# PlutoSDR I/Q streaming service — a Dafny model

The service drives an ADALM-Pluto radio (AD9361 transceiver). It keeps a
registry of eight tunable parameters and reads batches of raw I/Q samples
from the receive buffer. Each batch is cut into datagrams of at most
`MAX_IQ_SIZE` payload bytes behind a 33-byte `'=sqqqii'` header, and the
datagrams go by UDP to every connected client that has registered a target.
Clients steer the service over TCP with line commands:

- `*key=value;...` sets the UDP target (`udp=host:port`) and starts or
  stops sampling (`task=on` / `task=off`);
- `#type:name:value;...` sets parameters.

The sample client registers itself, then retunes the radio after every
datagram it decodes, sweeping the frequency upward in 1 MHz steps modulo
6 GHz.

The model is pure functions over immutable data, split into modules:

| module | file | what it holds |
|---|---|---|
| `Wrappers` | wrappers.dfy | `Option` |
| `Seqs` | seqs.dfy | flattening a sequence of sequences |
| `Text` | text.dfy | lower-casing, `strip()`, `split()`, Python's `int()` and `str()` |
| `Wire` | wire.dfy | little-endian two's-complement fields, the 33-byte header, the 16-bit sample unpacking |
| `Parameters` | parameters.dfy | the parameter table, `set_parameter` and the device writes it issues |
| `Capture` | capture.dfy | `start`/`stop`, one pass of the capture worker, the segmentation of a batch |
| `Sessions` | sessions.dfy | the session table (`id(socket)` → UDP target), admission, broadcast |
| `Protocol` | protocol.dfy | the line grammar and what a TCP session does to the server state |
| `Client` | client.dfy | the sample client: commands it sends, datagram decoding, the sweep |

Device writes are not performed. Each one is recorded as an `Effect` in a
log: an attribute write on a channel, or a baseband-rate call. The
registry, the log, the capture flags and the session table together form
the `Protocol.Server` state.

Three behaviours of the code a reader may not expect:

- **Sampling rate can exceed its own range.** `set_parameter` stores
  `int(b * 1.28)` as `sampling_frequency` when the RF bandwidth changes, and
  does not clamp it. It can reach 71680000, above that parameter's own
  maximum of 61440000. The registry invariant (`Parameters.WellFormed`)
  therefore allows up to 71680000 for that one name.
- **An empty batch still produces a frame.** It yields one frame with a
  count of 0.
- **`MAX_IQ_SIZE` counts bytes.** 32768 bytes is 8192 samples of 4 bytes.

## Model

| member | source | states |
|---|---|---|
| Parameters.Initial | plutosdr.py:62-72 | the initial table holds exactly the eight parameter names, each with a value inside its range or token list |
| Parameters.SetParameter | plutosdr.py:165-222 | every set keeps the registry well-formed and leaves every other name alone, except that a bandwidth set also rewrites `sampling_frequency`; a rejected set changes nothing and writes nothing; an accepted set stores what the validator admits and issues at least one device write |
| Parameters.Schema | plutosdr.py:62-72 | a parameter has a channel and a validator exactly when it is one of the eight names |
| Parameters.Writes | plutosdr.py:197-217 | attribute writes go to the parameter's own channel, also to the next channel for `rf_bandwidth` and to channel 0 for `tx_enabled`; only `sampling_frequency` and `rf_bandwidth` set the baseband rate; any value in a parameter's domain issues at least one write |
| Parameters.SetClamps | plutosdr.py:179-186 | an integer sent to a range parameter is stored clamped to [min, max] whatever the step |
| Parameters.SetIgnored | plutosdr.py:172-194 | an unknown name, the current value, a string outside the token list, or a value of the other kind leaves registry and device untouched |
| Parameters.SetRfBandwidth | plutosdr.py:205-217 | a bandwidth set writes the clamped bandwidth to channels 4 and 5, programs a baseband rate of 1.28 times it (or 521000 under 500000) and stores that rate as `sampling_frequency`; the rate lies in [521000, 71680000] |
| Parameters.CoupledRateExceedsOwnRange | plutosdr.py:210-217 | the widest bandwidth stores a sampling rate of 71680000, above the 61440000 maximum of `sampling_frequency` itself |
| Parameters.SetTxEnabled | plutosdr.py:197-200 | enabling TX powers channel 0 down and channel 1 up, disabling does the reverse; the two power-down values always differ |
| Parameters.SetSamplingFrequency | plutosdr.py:206-207 | a direct rate set issues exactly one baseband-rate call with the clamped rate |
| Parameters.SetSingleAttribute | plutosdr.py:201-209 | every other accepted set writes exactly one attribute, its own, on its own channel, with the stored value |
| Parameters.SetIdempotent | plutosdr.py:176-195 | sending the same value twice leaves the registry as sending it once; if the value was stored unchanged, the second send writes nothing |
| Capture.Start | plutosdr.py:125-138 | `start` turns sampling on and creates a worker exactly when none exists |
| Capture.Stop | plutosdr.py:140-148 | `stop` only clears the sampling flag and keeps the worker |
| Capture.OneWorker | plutosdr.py:125-148 | over any run of start/stop requests at most one worker is ever created, and the sampling flag follows the last request |
| Capture.ChunksShape | plutosdr.py:260-282 | a batch splits into `ceil(len/32768)` payloads (one when empty), each at most 32768 bytes, each the matching slice, and they concatenate back to the batch |
| Capture.Segment | plutosdr.py:260-278 | the loop with `total`, `index` and `next_` produces exactly the segmentation `Chunks` |
| Capture.CaptureIteration | plutosdr.py:236-282 | one worker pass drains the buffer iff sampling is off, skips iff the device read raises, dies iff the attenuation text or width cannot be packed, and otherwise emits one frame per payload |
| Capture.EmittedFrames | plutosdr.py:241-282 | every emitted frame unpacks to the `#` marker, the registry's frequency, bandwidth and rate, the device attenuation and a quarter of its payload length, followed by that payload |
| Capture.SamplingCount | plutosdr.py:465-473 | the buffer size is the argument clamped to [128, 8192], or 2048 when it is missing or not an integer |
| Capture.OneFramePerBuffer | plutosdr.py:264-282 | a full buffer of the configured size always travels as a single frame |
| Capture.Chunks | plutosdr.py:260-282 | a batch becomes at least one payload, none longer than 32768 bytes (`Capture.ChunksShape` gives the exact slices) |
| Wire.DecodeEncodeHeader | plutosdr.py:268 | unpacking a packed header gives every field back |
| Wire.EncodeDecodeHeader | plutosdr-client.py:42-43 | every 33-byte string unpacks to a packable header that packs back to the same bytes |
| Text.ParseInt | plutosdr.py:431-434 | text without a single decimal digit is never an integer (`Text.ParseIntToString` gives the round trip with `str`) |
| Text.SplitJoin | plutosdr.py:391-393 | splitting the join of separator-free parts gives the parts back |
| Text.ParseIntToString | plutosdr.py:433 | `int(str(n)) == n` for every integer |
| Text.SeparatorRejected | plutosdr.py:433 | text holding one of the separator controls 0x1C–0x1F anywhere is never an integer: `int()` strips only space and `\t \n \v \f \r`, so the control is neither stripped nor a digit |
| Text.SeparatorPaddedNumber | plutosdr.py:433 | a digit run behind 0x1C is rejected by `int()` |
| Text.SeparatorStripped | plutosdr.py:363 | `str.strip()` does remove 0x1C in front of a digit run, leaving the number |
| Sessions.Admit | plutosdr.py:315-329 | a connection is refused iff three sessions are registered; otherwise it is registered with no target, the others are unchanged and the table stays within capacity |
| Sessions.AdmitAll | plutosdr.py:315-329 | any sequence of connections leaves the table within capacity and keeps every registered session |
| Sessions.AdmitAsWritten | plutosdr.py:317-358 | admission as written: `accept` leaves the table alone and marks the connection pending iff the table is not at capacity; the worker's registration later adds the pending session |
| Sessions.AdmissionRace | plutosdr.py:317-358 | two connections accepted before their workers run push the table to four sessions, and the next connection is admitted too |
| Sessions.RaceForever | plutosdr.py:317-358 | once the table is above three sessions, a run of accepts and registrations (no session ending) never shrinks it, and every connection accepted after such a run passes the `== 3` check |
| Sessions.Remove | plutosdr.py:453-462 | removal deletes exactly that session and keeps keys unique |
| Sessions.Broadcast | plutosdr.py:436-451 | every healthy target receives the datagram, in table order; a failing target is cleared; nothing is sent anywhere else, and no session is added or dropped |
| Sessions.BroadcastIsolation | plutosdr.py:442-449 | a failing target does not stop delivery to any healthy one, and the healthy entry is left as it was |
| Sessions.Fanout | plutosdr.py:264-282 | broadcasting the frames of one batch in order keeps every session in the table |
| Sessions.FanoutInOrder | plutosdr.py:264-282 | across a batch, what any one session receives is a prefix of the batch's frames in order |
| Protocol.ParseLineKinds | plutosdr.py:363-375 | a line is undecodable iff it has a non-ASCII byte; it ends the session as blank iff nothing is left after lower-casing and stripping; it is ignored iff what is left starts with neither `*` nor `#` |
| Protocol.ParseEndpoint | plutosdr.py:403-406 | an accepted address yields a host without `:` and an integer port in [0, 65535] |
| Protocol.SeparatorPortRejected | plutosdr.py:403-406 | a port holding a separator control 0x1C–0x1F is refused, as `int(port)` raises |
| Protocol.Connect | plutosdr.py:313-329 | a connection is refused iff the table is full; otherwise the session is admitted with no target |
| Protocol.ApplyTask | plutosdr.py:392-416 | a `*` entry touches only this session's target or the capture flags, never the registry, the device log or any other session; an unknown key, or a `task` value other than `on`/`off`, changes nothing; only `udp` touches the table |
| Protocol.ApplyParams | plutosdr.py:426-434 | a `#` line only appends to the device log and keeps the registry well-formed; it runs to the end iff every entry converted |
| Protocol.ProcessLine | plutosdr.py:361-378 | the session reads on iff the line is a `*` line, an ignored line, or a `#` line whose integers all convert; a `*` line applies its entries in order, a `#` line its settings up to the first bad integer, and any other line changes nothing; the session stays admitted, no other session is touched, and the device log only grows |
| Protocol.Converse | plutosdr.py:361-378 | the read loop keeps the session admitted, leaves every other session as it was, and only appends to the device log (`Protocol.ConverseAppend` and `Protocol.ConverseStops` give the order) |
| Protocol.ConverseAppend | plutosdr.py:361-378 | after lines that all keep the session reading, the conversation carries on from the state they left: lines apply in order |
| Protocol.ConverseStops | plutosdr.py:361-378 | the first line that ends the session is the last one applied; nothing after it is read |
| Protocol.ParseLineLower | plutosdr.py:363 | commands are case-insensitive: lower-casing a line before sending it changes nothing |
| Protocol.Session | plutosdr.py:353-381 | when the session ends its entry is gone and every other session is as it was |
| Protocol.BlankLineEndsSession | plutosdr.py:363-375 | an all-whitespace line (or end of stream) ends the session without any change |
| Protocol.MalformedTripleSkipped | plutosdr.py:426-430 | a `#` entry without exactly three fields is skipped as if absent |
| Protocol.MalformedPairSkipped | plutosdr.py:391-395 | a `*` entry without exactly two fields is skipped as if absent |
| Protocol.TripleConversion | plutosdr.py:431-434 | `int`/`long` entries go through `int()` (with its own whitespace rule, see `Text.SeparatorRejected`) and fail when it rejects; every other type passes the text |
| Protocol.BadNumberStopsLine | plutosdr.py:426-434 | an unparsable integer applies the entries before it, none after it, and ends the session |
| Protocol.UdpReplacesTarget | plutosdr.py:397-407 | a good `udp=` address replaces this session's target with an open socket to it |
| Protocol.UdpBadAddressClosesOld | plutosdr.py:401-409 | a bad address closes the old socket but leaves it in the table |
| Protocol.TaskOnOff | plutosdr.py:412-416 | `task=on` starts sampling with a worker; `task=off` only clears the flag; neither touches the sessions |
| Client.DecodeFrame | plutosdr-client.py:41-52 | a decoded datagram carries the `#` marker and exactly four payload bytes, one I/Q pair, per announced sample |
| Client.ClientStep | plutosdr-client.py:39-50 | the sweep frequency is reduced into [0, 6 GHz); after a decoded datagram it advances by 1 MHz and exactly two lines are sent, which the server parses as setting `tx_frequency` 9 MHz above the sweep value and then `frequency` to it; anything else keeps the reduced value and sends nothing |
| Client.DecodeEncodeFrame | plutosdr-client.py:41-52 | a packed header followed by 4·count payload bytes decodes to that header and the payload's (I, Q) pairs |
| Client.OtherMarkerIgnored | plutosdr-client.py:41 | a datagram not starting with `#` is ignored |
| Client.LengthMismatchSkipped | plutosdr-client.py:42-45 | a datagram whose payload is not four bytes per announced sample is skipped |
| Client.ServerFramesDecode | plutosdr-client.py:40-52 | every frame the server emits decodes on the client iff its payload is whole samples, and then to the server's snapshot and samples |
| Client.HandshakeParses | plutosdr-client.py:30-33 | the three opening commands parse on the server as the UDP target, `task=on` and `tx_enabled=true` |
| Client.SweepCommands | plutosdr-client.py:39-50 | after each decoded datagram the client requests a frequency in [0, 6 GHz) and a TX frequency 9 MHz above it, and both lines parse as those settings |
| Client.SweepRetunes | plutosdr-client.py:48-50 | on the server those two lines keep the session open and store both frequencies clamped to [70 MHz, 6 GHz] |
| Client.ClientSession | plutosdr-client.py:30-50 | from any state in which the session is admitted, the handshake followed by one retuning step leaves the session's UDP target installed, sampling on, `tx_enabled` equal to `true` and both frequencies stored, clamped |
| Client.FreshClientSession | plutosdr-client.py:30-50 | the same on a freshly booted server: the connection is admitted, and the handshake installs the target, starts sampling, enables the transmitter, and the retune stores both clamped frequencies |

## Findings

| source | as written | input that shows it | evidently intended | confidence | as-written member | corrected member |
|---|---|---|---|---|---|---|
| plutosdr.py:317-358 | the size check runs at accept time, but the session registers itself later in its own worker thread, and the check is `== 3` | two sessions registered; connections 3 and 4 accepted before either worker runs; the table reaches four, and every later connection passes `len == 3` while no session ends (`Sessions.RaceForever`) | at most three sessions at once | high, not executed | Sessions.AdmissionRace | Sessions.AdmitAll |

The rest of the model uses the corrected admission. `Sessions.Admit`
checks the size and registers the session in one step, and
`Protocol.Connect` is built on it.

## Left out

- The device itself: loading libad9361, contexts, channel setup and buffer
  creation. Device writes become `Effect` records, and failures of those
  writes after the new value is stored are not modelled.
- Threads and the lock. Each operation is one atomic step. The only
  interleaving modelled is the admission race under "Findings".
- Capture.OneWorker: "at most one worker" holds only because each
  operation is one atomic step. `DeviceService.start` tests for an
  existing worker and creates one without holding the lock
  (plutosdr.py:130-133). Two sessions sending `task=on` at the same time
  can therefore each create a worker.
- Sockets. The UDP transport's failures become the `failing` set of
  session ids. Name resolution inside `connect` is not modelled: any
  `host:port` with a port in range is accepted.
- The "too many connections" notice. The server runs under Python 3
  (plutosdr.py:1), and plutosdr.py:319 passes a `str` to `sendall`,
  which raises `TypeError`. The notice is never sent, and the `shutdown`
  and `close` after it are skipped. The outer handler prints a traceback
  and the accept loop goes on. The model keeps only the outcome: the
  table is unchanged and no session starts.
- The buffer read and the attenuation read become inputs of
  `Capture.CaptureIteration`. The device's gain text appears only as the
  result of `int(float(...))`.
- Logging, `traceback`, `time.sleep` (including the two-second sleep when
  no data callback is set) and the retry loop of the device context.
- `DeviceService.release` and `NetworkService.stop`. Both are teardown of
  threads and sockets.
- The client's FFT and plotting, its startup argument parsing, and its
  socket setup.
- Native byte order is fixed to little-endian.
- Parameters.CoupledRate: `int(b * 1.28)` is modelled as the integer
  `b * 128 / 100`. Floating point is not modelled. The two agree over the
  bandwidths the table admits because the double nearest 1.28 is slightly
  above 1.28. The rounded product therefore never drops below the exact
  one, even where the exact product is an integer (every multiple of 25).
- Capture.SamplingCount: the command-line argument is read as ASCII.
  Python's `int()` on a `str` also accepts other Unicode decimal digits
  and Unicode whitespace (`int('４０９６')` is 4096). For such an argument
  the model falls back to the default count of 2048.
- Capture.CaptureIteration: when sampling is off, the buffer read is
  modelled as never raising. Both outcomes leave the state unchanged.
- Python's `int()` limit of 4300 digits is not modelled.

=== FILE: capture.dfy ===
/** The capture side of `DeviceService`: the start/stop flags, one
    iteration of the capture worker, and the segmentation of a raw I/Q
    batch into datagram-sized frames. */
module Capture {
  import opened Wrappers
  import opened Text
  import opened Wire
  import opened Parameters
  import opened Seqs

  /** Payload ceiling per frame, in bytes: 8192 I/Q samples of 4 bytes. */
  const MaxIqSize: nat := 32768

  /** Whether the capture worker has been created, and whether it forwards
      the batches it reads. */
  datatype CaptureState = CaptureState(workerExists: bool, sampling: bool)

  const Idle := CaptureState(false, false)

  /** `DeviceService.start`: creates the worker when there is none and
      turns sampling on. The flag says whether a worker was created. */
  function Start(c: CaptureState): (r: (CaptureState, bool))
    ensures r.0.workerExists && r.0.sampling
    ensures r.1 <==> !c.workerExists
  {
    (CaptureState(true, true), !c.workerExists)
  }

  /** `DeviceService.stop`: only clears the sampling flag. */
  function Stop(c: CaptureState): (r: CaptureState)
    ensures !r.sampling && r.workerExists == c.workerExists
  {
    c.(sampling := false)
  }

  /** A run of `task=on` (true) and `task=off` (false) requests: the final
      state and how many workers were created along the way. */
  function Toggles(c: CaptureState, ops: seq<bool>): (CaptureState, nat)
    decreases |ops|
  {
    if |ops| == 0 then (c, 0)
    else
      var (c1, spawned) := if ops[0] then Start(c) else (Stop(c), false);
      var (c2, n) := Toggles(c1, ops[1..]);
      (c2, n + (if spawned then 1 else 0))
  }

  /** However the requests interleave, at most one worker is ever created,
      exactly one when none existed and some request turned sampling on,
      and the sampling flag follows the last request. */
  lemma {:induction false} OneWorker(c: CaptureState, ops: seq<bool>)
    ensures var (c', n) := Toggles(c, ops);
            && n == (if !c.workerExists && true in ops then 1 else 0)
            && c'.workerExists == (c.workerExists || true in ops)
            && (|ops| > 0 ==> c'.sampling == ops[|ops| - 1])
            && (|ops| == 0 ==> c' == c)
    decreases |ops|
  {
    if |ops| > 0 {
      var c1 := if ops[0] then Start(c).0 else Stop(c);
      OneWorker(c1, ops[1..]);
      assert ops == [ops[0]] + ops[1..];
      assert true in ops <==> ops[0] || true in ops[1..];
    }
  }

  /** The batch split into payloads as the capture loop slices it: full
      `MaxIqSize` slices while more than that remains, then the rest. */
  function Chunks(b: seq<Byte>): (cs: seq<seq<Byte>>)
    ensures |cs| >= 1
    ensures forall i :: 0 <= i < |cs| ==> |cs[i]| <= MaxIqSize
    decreases |b|
  {
    if |b| <= MaxIqSize then [b] else [b[..MaxIqSize]] + Chunks(b[MaxIqSize..])
  }

  /** max(1, ceil(L / MaxIqSize)). */
  function FrameCount(len: nat): nat {
    if len == 0 then 1 else (len + MaxIqSize - 1) / MaxIqSize
  }

  /** The shape of a segmentation: ceil(L/MaxIqSize) payloads (one for an
      empty batch), payload i is bytes [i*MaxIqSize, min((i+1)*MaxIqSize, L)),
      every payload but the last is full, the last is non-empty unless the
      batch is, and together they are the batch in order. */
  lemma {:induction false} ChunksShape(b: seq<Byte>)
    ensures var cs := Chunks(b);
            && |cs| == FrameCount(|b|)
            && Concat(cs) == b
            && (forall i :: 0 <= i < |cs| ==>
                  i * MaxIqSize <= |b| &&
                  cs[i] == b[i * MaxIqSize..Min((i + 1) * MaxIqSize, |b|)])
            && (forall i :: 0 <= i < |cs| - 1 ==> |cs[i]| == MaxIqSize)
            && |cs[|cs| - 1]| <= MaxIqSize
            && (|b| > 0 ==> |cs[|cs| - 1]| > 0)
            && (|b| == 0 <==> cs == [[]])
  {
    ChunksCount(b);
    ChunksConcat(b);
    ChunksSlices(b);
    ChunksLast(b);
  }

  /** Every payload but the last is full, and only the empty batch yields
      an empty (and single) payload. */
  lemma {:induction false} ChunksLast(b: seq<Byte>)
    ensures var cs := Chunks(b);
            && (forall i :: 0 <= i < |cs| - 1 ==> |cs[i]| == MaxIqSize)
            && (|b| > 0 ==> |cs[|cs| - 1]| > 0)
            && (|b| == 0 <==> cs == [[]])
    decreases |b|
  {
    if |b| > MaxIqSize {
      var cs := Chunks(b);
      var rest := Chunks(b[MaxIqSize..]);
      ChunksLast(b[MaxIqSize..]);
      assert cs == [b[..MaxIqSize]] + rest;
      assert cs[|cs| - 1] == rest[|rest| - 1];
      forall i | 1 <= i < |cs| - 1 ensures |cs[i]| == MaxIqSize {
        assert cs[i] == rest[i - 1];
      }
    }
  }

  lemma {:induction false} ChunksCount(b: seq<Byte>)
    ensures |Chunks(b)| == FrameCount(|b|)
    decreases |b|
  {
    if |b| > MaxIqSize {
      ChunksCount(b[MaxIqSize..]);
    }
  }

  lemma {:induction false} ChunksConcat(b: seq<Byte>)
    ensures Concat(Chunks(b)) == b
    decreases |b|
  {
    if |b| > MaxIqSize {
      var rest := b[MaxIqSize..];
      ChunksConcat(rest);
      assert Chunks(b)[1..] == Chunks(rest);
      assert b == b[..MaxIqSize] + rest;
    }
  }

  lemma {:induction false} ChunksSlices(b: seq<Byte>)
    ensures var cs := Chunks(b);
            forall i :: 0 <= i < |cs| ==>
              i * MaxIqSize <= |b| &&
              cs[i] == b[i * MaxIqSize..Min((i + 1) * MaxIqSize, |b|)]
  {
    forall i | 0 <= i < |Chunks(b)|
      ensures i * MaxIqSize <= |b|
      ensures Chunks(b)[i] == b[i * MaxIqSize..Min((i + 1) * MaxIqSize, |b|)]
    {
      ChunkAt(b, i);
    }
  }

  /** Payload i is bytes [i*MaxIqSize, min((i+1)*MaxIqSize, L)). */
  lemma {:induction false} ChunkAt(b: seq<Byte>, i: nat)
    requires i < |Chunks(b)|
    ensures i * MaxIqSize <= |b|
    ensures Chunks(b)[i] == b[i * MaxIqSize..Min((i + 1) * MaxIqSize, |b|)]
    decreases i
  {
    if i > 0 {
      var rest := b[MaxIqSize..];
      assert Chunks(b) == [b[..MaxIqSize]] + Chunks(rest);
      assert Chunks(b)[i] == Chunks(rest)[i - 1];
      ChunkAt(rest, i - 1);
      assert (i - 1) * MaxIqSize + MaxIqSize == i * MaxIqSize;
      assert i * MaxIqSize + MaxIqSize == (i + 1) * MaxIqSize;
      assert Min(i * MaxIqSize, |rest|) + MaxIqSize == Min((i + 1) * MaxIqSize, |b|);
    }
  }

  /** The capture loop's own slicing, with its `total`, `index` and `next_`
      bookkeeping, computes exactly `Chunks`. */
  method Segment(iq: seq<Byte>) returns (chunks: seq<seq<Byte>>)
    ensures chunks == Chunks(iq)
  {
    var total := |iq|;
    var index := 0;
    var next := 0;
    chunks := [];
    while total > MaxIqSize
      invariant next == index * MaxIqSize <= |iq|
      invariant total == |iq| - next
      invariant chunks + Chunks(iq[next..]) == Chunks(iq)
      decreases total
    {
      var current := index * MaxIqSize;
      next := (index + 1) * MaxIqSize;
      assert iq[current..][..MaxIqSize] == iq[current..next];
      assert iq[current..][MaxIqSize..] == iq[next..];
      chunks := chunks + [iq[current..next]];
      total := total - MaxIqSize;
      index := index + 1;
    }
    chunks := chunks + [iq[next..]];
  }

  /** The header fields read under the lock: frequency, bandwidth and
      sampling rate from the registry, attenuation from the device. */
  function SnapshotHeader(reg: Registry, attenuation: int, count: int): Header
    requires WellFormed(reg)
  {
    assert InDomain("frequency", reg["frequency"]);
    assert InDomain("rf_bandwidth", reg["rf_bandwidth"]);
    assert InDomain("sampling_frequency", reg["sampling_frequency"]);
    Header(Marker, reg["frequency"].i, reg["rf_bandwidth"].i, reg["sampling_frequency"].i,
           attenuation, count)
  }

  /** One datagram: the packed header, then the payload bytes. The count
      field is `len(payload) // 4`. */
  function Frame(reg: Registry, attenuation: int, payload: seq<Byte>): (f: seq<Byte>)
    requires WellFormed(reg)
    requires InSigned(attenuation, 4)
    requires |payload| <= MaxIqSize
    ensures |f| == HeaderSize + |payload|
  {
    var h := SnapshotHeader(reg, attenuation, |payload| / 4);
    assert Packable(h) by {
      PackableBounds(h);
      assert InDomain("frequency", reg["frequency"]);
      assert InDomain("rf_bandwidth", reg["rf_bandwidth"]);
      assert InDomain("sampling_frequency", reg["sampling_frequency"]);
    }
    EncodeHeader(h) + payload
  }

  /** What one pass of the capture worker does. */
  datatype Iteration =
    | Drained                      // sampling off: the batch is read and dropped
    | Skipped                      // the device read raised: logged, next pass
    | Emitted(frames: seq<seq<Byte>>)
    | Crashed                      // `struct.pack` raised: the worker ends

  /** One pass of the capture worker. `batch` is what the buffer read
      returns (`None` when the device raises inside the guarded block);
      `attenuation` is `int(float(...))` of the device's gain text, `None`
      when that conversion raises — it runs at pack time, outside the
      guarded block. */
  function CaptureIteration(c: CaptureState, reg: Registry, batch: Option<seq<Byte>>,
                            attenuation: Option<int>): (r: Iteration)
    requires WellFormed(reg)
    ensures !c.sampling <==> r.Drained?
    ensures r.Skipped? <==> c.sampling && batch.None?
    ensures r.Crashed? <==>
      c.sampling && batch.Some? && (attenuation.None? || !InSigned(attenuation.value, 4))
    ensures r.Emitted? ==> |r.frames| == FrameCount(|batch.value|)
  {
    if !c.sampling then Drained
    else
      match batch
      case None => Skipped
      case Some(iq) =>
        match attenuation
        case None => Crashed
        case Some(att) =>
          if !InSigned(att, 4) then Crashed
          else
            ChunksShape(iq);
            var cs := Chunks(iq);
            Emitted(seq(|cs|, i requires 0 <= i < |cs| => Frame(reg, att, cs[i])))
  }

  /** Every frame of a batch carries the same snapshot — registry
      frequency, bandwidth and sampling rate and the device attenuation —
      with the `#` marker and a count of a quarter of its payload; the
      payloads are the batch's segmentation. */
  lemma {:induction false} EmittedFrames(c: CaptureState, reg: Registry, iq: seq<Byte>, att: int)
    requires WellFormed(reg)
    requires c.sampling && InSigned(att, 4)
    ensures var r := CaptureIteration(c, reg, Some(iq), Some(att));
            && r.Emitted?
            && |r.frames| == |Chunks(iq)|
            && forall i :: 0 <= i < |r.frames| ==>
                 && |r.frames[i]| >= HeaderSize
                 && r.frames[i][HeaderSize..] == Chunks(iq)[i]
                 && DecodeHeader(r.frames[i][..HeaderSize]) ==
                    Header(Marker, reg["frequency"].i, reg["rf_bandwidth"].i,
                           reg["sampling_frequency"].i, att, |Chunks(iq)[i]| / 4)
  {
    var r := CaptureIteration(c, reg, Some(iq), Some(att));
    var cs := Chunks(iq);
    forall i | 0 <= i < |r.frames|
      ensures r.frames[i][HeaderSize..] == cs[i]
      ensures DecodeHeader(r.frames[i][..HeaderSize]) == SnapshotHeader(reg, att, |cs[i]| / 4)
    {
      FrameDecodes(reg, att, cs[i]);
    }
  }

  lemma {:induction false} FrameDecodes(reg: Registry, att: int, payload: seq<Byte>)
    requires WellFormed(reg)
    requires InSigned(att, 4)
    requires |payload| <= MaxIqSize
    ensures var f := Frame(reg, att, payload);
            && f[HeaderSize..] == payload
            && DecodeHeader(f[..HeaderSize]) == SnapshotHeader(reg, att, |payload| / 4)
  {
    var h := SnapshotHeader(reg, att, |payload| / 4);
    var f := Frame(reg, att, payload);
    PackableBounds(h);
    assert f == EncodeHeader(h) + payload;
    assert f[..HeaderSize] == EncodeHeader(h);
    DecodeEncodeHeader(h);
  }

  /** `main`'s buffer size: `int(argv[1])` clamped to [128, 8192], or 2048
      when the argument is missing or not an integer. */
  function SamplingCount(arg: Option<string>): (n: int)
    ensures 128 <= n <= 8192
    ensures arg.None? ==> n == 2048
    ensures arg.Some? && ParseInt(arg.value).None? ==> n == 2048
    ensures arg.Some? && ParseInt(arg.value).Some? ==>
      n == Parameters.Clamp(ParseInt(arg.value).value, 128, 8192)
  {
    match arg
    case None => 2048
    case Some(s) =>
      match ParseInt(s)
      case None => 2048
      case Some(v) => if v < 128 then 128 else if v > 8192 then 8192 else v
  }

  /** A full buffer of `SamplingCount` I/Q samples is at most 32768 bytes,
      so it always travels as a single frame. */
  lemma {:induction false} OneFramePerBuffer(arg: Option<string>, iq: seq<Byte>)
    requires |iq| <= 4 * SamplingCount(arg)
    ensures |Chunks(iq)| == 1
  {
  }
}

=== FILE: client.dfy ===
/** The sample client's side of the protocol: the commands it sends over
    TCP and its decoding of each UDP datagram into a header and I/Q pairs. */
module Client {
  import opened Wrappers
  import opened Text
  import opened Wire
  import opened Parameters
  import opened Capture
  import opened Protocol
  import Sessions
  import Seqs

  /** What the client makes of one datagram. */
  datatype Received =
    | NotAFrame                              // first byte is not `#`: ignored
    | Malformed                              // an unpack raised: logged and skipped
    | Decoded(header: Header, iq: seq<(int, int)>)

  /** `message[0]` marker test, `struct.unpack('=sqqqii', message[:33])`,
      `struct.unpack('=<2*count>h', message[33:])` and the I/Q pairing. */
  function DecodeFrame(msg: seq<Byte>): (r: Received)
    ensures r.Decoded? ==>
      && r.header.marker == Marker
      && |r.iq| == r.header.count
      && |msg| == HeaderSize + 4 * r.header.count
  {
    if |msg| == 0 then Malformed
    else if msg[0] != Marker then NotAFrame
    else if |msg| < HeaderSize then Malformed
    else
      var h := DecodeHeader(msg[..HeaderSize]);
      var raw := msg[HeaderSize..];
      if h.count < 0 || |raw| != 4 * h.count then Malformed
      else
        var xs := Int16s(raw);
        Decoded(h, seq(h.count, i requires 0 <= i < h.count => (xs[2 * i], xs[2 * i + 1])))
  }

  /** Pair i holds the signed 16-bit values at payload bytes 4i..4i+2 and
      4i+2..4i+4. */
  function SamplePair(payload: seq<Byte>, i: nat): (int, int)
    requires 4 * i + 4 <= |payload|
  {
    (ToSigned(payload[4 * i..4 * i + 2]), ToSigned(payload[4 * i + 2..4 * i + 4]))
  }

  /** The round trip: a `#` header packed by the server followed by exactly
      4*count bytes decodes to that header and count I/Q pairs read from
      the payload. */
  lemma {:induction false} DecodeEncodeFrame(h: Header, payload: seq<Byte>)
    requires Packable(h) && h.marker == Marker
    requires 0 <= h.count && |payload| == 4 * h.count
    ensures var r := DecodeFrame(EncodeHeader(h) + payload);
            && r.Decoded?
            && r.header == h
            && forall i :: 0 <= i < h.count ==> r.iq[i] == SamplePair(payload, i)
  {
    var msg := EncodeHeader(h) + payload;
    assert msg[0] == Marker;
    assert msg[..HeaderSize] == EncodeHeader(h);
    assert msg[HeaderSize..] == payload;
    DecodeEncodeHeader(h);
    DecodeWhole(msg);
  }

  /** A `#` datagram with four payload bytes per announced sample decodes
      to its header and the payload's pairs. */
  lemma {:induction false} DecodeWhole(msg: seq<Byte>)
    requires |msg| >= HeaderSize && msg[0] == Marker
    requires DecodeHeader(msg[..HeaderSize]).count >= 0
    requires |msg| - HeaderSize == 4 * DecodeHeader(msg[..HeaderSize]).count
    ensures var r := DecodeFrame(msg);
            && r.Decoded?
            && r.header == DecodeHeader(msg[..HeaderSize])
            && forall i :: 0 <= i < r.header.count ==> r.iq[i] == SamplePair(msg[HeaderSize..], i)
  {
    var payload := msg[HeaderSize..];
    var r := DecodeFrame(msg);
    forall i | 0 <= i < r.header.count
      ensures r.iq[i] == SamplePair(payload, i)
    {
      Int16Pair(payload, i);
    }
  }

  /** Samples 2i and 2i+1 of the 16-bit unpacking are pair i. */
  lemma {:induction false} Int16Pair(payload: seq<Byte>, i: nat)
    requires |payload| % 2 == 0 && 4 * i + 4 <= |payload|
    ensures Int16s(payload)[2 * i] == ToSigned(payload[4 * i..4 * i + 2])
    ensures Int16s(payload)[2 * i + 1] == ToSigned(payload[4 * i + 2..4 * i + 4])
  {
    assert 2 * (2 * i) == 4 * i;
    assert 2 * (2 * i + 1) == 4 * i + 2;
  }

  /** Datagrams that do not start with `#` are ignored. */
  lemma {:induction false} OtherMarkerIgnored(msg: seq<Byte>)
    requires |msg| > 0 && msg[0] != Marker
    ensures DecodeFrame(msg) == NotAFrame
  {
  }

  /** A datagram whose bytes after the header are not exactly four per
      announced sample fails to unpack and is skipped. */
  lemma {:induction false} LengthMismatchSkipped(msg: seq<Byte>)
    requires |msg| >= HeaderSize && msg[0] == Marker
    requires |msg| - HeaderSize != 4 * DecodeHeader(msg[..HeaderSize]).count
    ensures DecodeFrame(msg) == Malformed
  {
  }

  /** Every frame the capture worker emits decodes on the client exactly
      when its payload is a whole number of samples, and then to the
      snapshot header and the payload's samples. */
  lemma {:induction false} ServerFramesDecode(c: CaptureState, reg: Registry, iq: seq<Byte>, att: int, i: nat)
    requires WellFormed(reg)
    requires c.sampling && InSigned(att, 4)
    requires i < |Chunks(iq)|
    ensures var frames := CaptureIteration(c, reg, Some(iq), Some(att)).frames;
            var payload := Chunks(iq)[i];
            var r := DecodeFrame(frames[i]);
            && (r.Decoded? <==> |payload| % 4 == 0)
            && (r.Decoded? ==>
                  && r.header == Header(Marker, reg["frequency"].i, reg["rf_bandwidth"].i,
                                        reg["sampling_frequency"].i, att, |payload| / 4)
                  && forall k :: 0 <= k < r.header.count ==> r.iq[k] == SamplePair(payload, k))
  {
    EmittedFrames(c, reg, iq, att);
    var frames := CaptureIteration(c, reg, Some(iq), Some(att)).frames;
    var payload := Chunks(iq)[i];
    var h := SnapshotHeader(reg, att, |payload| / 4);
    FrameDecodes(reg, att, payload);
    assert frames[i] == Frame(reg, att, payload);
    assert frames[i] == frames[i][..HeaderSize] + frames[i][HeaderSize..];
    EncodeDecodeHeader(frames[i][..HeaderSize]);
    if |payload| % 4 == 0 {
      DecodeEncodeFrame(h, payload);
    }
  }

  /** The UDP port the client listens on. */
  const ClientPort := 9527

  /** The sweep wraps at this frequency. */
  const SweepLimit := 6000000000

  /** `*key=value` as one line. */
  function PairCommand(key: string, value: string): string {
    "*" + key + "=" + value + "\n"
  }

  /** `#type:name:value` as one line. */
  function TripleCommand(t: string, name: string, value: string): string {
    "#" + t + ":" + name + ":" + value + "\n"
  }

  /** The three commands sent after connecting: `*udp=<host>:9527`,
      `*task=on` and `#str:tx_enabled:true`. */
  function Handshake(host: string): seq<string> {
    [PairCommand("udp", host + ":" + IntToString(ClientPort)),
     PairCommand("task", "on"),
     TripleCommand("str", "tx_enabled", "true")]
  }

  /** `#long:<name>:<n>`. */
  function TuneCommand(name: string, n: int): string {
    TripleCommand("long", name, IntToString(n))
  }

  /** One pass of the receive loop: the sweep frequency is reduced modulo
      6 GHz, and after a datagram decodes the sweep advances by 1 MHz and
      two lines go to the server, which reads them as setting the TX
      frequency 9 MHz above the sweep value and the RX frequency to it. */
  function ClientStep(g: int, msg: seq<Byte>): (r: (int, seq<string>))
    ensures var g0 := g % SweepLimit;
            && 0 <= g0 < SweepLimit
            && (DecodeFrame(msg).Decoded? ==>
                  && r.0 == g0 + 1000000
                  && |r.1| == 2
                  && ParseLine(r.1[0]) == ParamLine([SetItem("tx_frequency", IntVal(g0 + 9000000))])
                  && ParseLine(r.1[1]) == ParamLine([SetItem("frequency", IntVal(g0))]))
            && (!DecodeFrame(msg).Decoded? ==> r == (g0, []))
  {
    var g0 := g % SweepLimit;
    match DecodeFrame(msg)
    case Decoded(_, _) =>
      FrequencyNamesPlain();
      TuneCommandParses("tx_frequency", g0 + 9000000);
      TuneCommandParses("frequency", g0);
      (g0 + 1000000, [TuneCommand("tx_frequency", g0 + 9000000), TuneCommand("frequency", g0)])
    case _ => (g0, [])
  }

  /** The two lines a decoded datagram produces, as text. */
  lemma {:induction false} StepLines(g: int, msg: seq<Byte>)
    requires DecodeFrame(msg).Decoded?
    ensures var g0 := g % SweepLimit;
            ClientStep(g, msg).1 == [TuneCommand("tx_frequency", g0 + 9000000), TuneCommand("frequency", g0)]
  {
  }

  /** Text that survives the server's line handling unchanged and splits
      nowhere: ASCII, no capitals, no whitespace and none of `; : =`. */
  predicate Plain(s: string) {
    forall c :: c in s ==>
      c as int < 128 && !IsUpper(c) && !IsSpace(c) && c != ';' && c != ':' && c != '='
  }

  lemma {:induction false} PlainNumber(n: int)
    ensures Plain(IntToString(n)) && |IntToString(n)| > 0
  {
    var d := NatToString(if n < 0 then -n else n);
    assert forall c :: c in d ==> IsDigit(c) by {
      forall c | c in d ensures IsDigit(c) {
        var i :| 0 <= i < |d| && d[i] == c;
      }
    }
  }

  /** A `*`/`#` line whose body has no capitals and no `;` reaches the
      entry parser as that one body. */
  lemma {:induction false} SingleEntryLine(prefix: char, body: string)
    requires prefix == '*' || prefix == '#'
    requires forall c :: c in body ==> c as int < 128 && !IsUpper(c) && c != ';'
    requires |body| > 0 && !IsSpace(body[|body| - 1])
    ensures prefix == '*' ==> ParseLine([prefix] + body + "\n") == TaskLine(TaskPairs([body]))
    ensures prefix == '#' ==> ParseLine([prefix] + body + "\n") == ParamLine(ParamItems([body]))
  {
    var x := [prefix] + body;
    var line := x + "\n";
    assert [prefix] + body + "\n" == line;
    assert IsAscii(line);
    assert forall c :: c in line ==> !IsUpper(c);
    LowerIdentity(line);
    assert x[|x| - 1] == body[|body| - 1];
    StripNewline(x, StrBlanks);
    assert Strip(Lower(line)) == x;
    assert x[1..] == body;
    assert ';' !in body;
    assert Split(body, ';') == [body];
  }

  lemma {:induction false} PairEntry(key: string, value: string)
    requires '=' !in key && '=' !in value
    ensures TaskPairs([key + "=" + value]) == [TaskPair(key, value)]
  {
    assert Join([key, value], '=') == key + "=" + value;
    SplitJoin([key, value], '=');
  }

  lemma {:induction false} TripleEntry(t: string, name: string, value: string)
    requires ':' !in t && ':' !in name && ':' !in value
    ensures ParamItems([t + ":" + name + ":" + value]) == [ParamItemOf([t, name, value])]
  {
    assert Join([value], ':') == value;
    assert Join([name, value], ':') == name + ":" + value;
    assert Join([t, name, value], ':') == t + ":" + name + ":" + value;
    SplitJoin([t, name, value], ':');
  }

  /** The address in a `udp=` entry parses back to the host and port. */
  lemma {:induction false} EndpointRoundTrip(host: string, port: int)
    requires ':' !in host && 0 <= port <= 65535
    ensures ParseEndpoint(host + ":" + IntToString(port)) == Some(Sessions.Endpoint(host, port))
  {
    PlainNumber(port);
    assert Join([host, IntToString(port)], ':') == host + ":" + IntToString(port);
    SplitJoin([host, IntToString(port)], ':');
    ParseIntToString(port);
  }

  /** A `#` line of one entry of plain fields parses to that entry. */
  lemma {:induction false} TripleLine(t: string, name: string, value: string)
    requires Plain(t) && Plain(name) && Plain(value) && |value| > 0
    ensures ParseLine(TripleCommand(t, name, value)) == ParamLine([ParamItemOf([t, name, value])])
  {
    var body := t + ":" + name + ":" + value;
    assert "#" + t + ":" + name + ":" + value + "\n" == ['#'] + body + "\n";
    assert body[|body| - 1] in value;
    SingleEntryLine('#', body);
    TripleEntry(t, name, value);
  }

  /** A `*` line of one entry parses to that entry. */
  lemma {:induction false} PairLine(key: string, value: string)
    requires Plain(key) && |value| > 0 && !IsSpace(value[|value| - 1])
    requires forall c :: c in value ==> c as int < 128 && !IsUpper(c) && c != ';' && c != '='
    ensures ParseLine(PairCommand(key, value)) == TaskLine([TaskPair(key, value)])
  {
    var body := key + "=" + value;
    assert "*" + key + "=" + value + "\n" == ['*'] + body + "\n";
    assert body[|body| - 1] == value[|value| - 1];
    SingleEntryLine('*', body);
    PairEntry(key, value);
  }

  /** A tuning command sets the named parameter to the number sent. */
  lemma {:induction false} TuneCommandParses(name: string, n: int)
    requires Plain(name)
    ensures ParseLine(TuneCommand(name, n)) == ParamLine([SetItem(name, IntVal(n))])
  {
    var text := IntToString(n);
    PlainNumber(n);
    LongPlain();
    TripleLine("long", name, text);
    ParseIntToString(n);
    LongItem(name, text, n);
  }

  lemma {:induction false} LongItem(name: string, text: string, n: int)
    requires ParseInt(text) == Some(n)
    ensures ParamItemOf(["long", name, text]) == SetItem(name, IntVal(n))
  {
  }

  /** Every command the client sends is one well-formed entry under the
      server's grammar, with the meaning the client intends. */
  lemma {:induction false} HandshakeParses(host: string)
    requires Plain(host)
    ensures var cmds := Handshake(host);
            && ParseLine(cmds[0]) == TaskLine([TaskPair("udp", host + ":" + IntToString(ClientPort))])
            && ParseEndpoint(host + ":" + IntToString(ClientPort)) == Some(Sessions.Endpoint(host, ClientPort))
            && ParseLine(cmds[1]) == TaskLine([TaskPair("task", "on")])
            && ParseLine(cmds[2]) == ParamLine([SetItem("tx_enabled", StrVal("true"))])
  {
    UdpCommand(host);
    TaskOnCommand();
    TxEnabledCommand();
  }

  lemma TaskOnCommand()
    ensures ParseLine(PairCommand("task", "on")) == TaskLine([TaskPair("task", "on")])
  {
    TaskWordsPlain();
    PairLine("task", "on");
  }

  lemma TxEnabledCommand()
    ensures ParseLine(TripleCommand("str", "tx_enabled", "true")) == ParamLine([SetItem("tx_enabled", StrVal("true"))])
  {
    TxWordsPlain();
    TextTripleLine("str", "tx_enabled", "true");
  }

  /** A `#` line of one plain entry whose type is not an integer type sets
      the parameter to the text. */
  lemma {:induction false} TextTripleLine(t: string, name: string, value: string)
    requires Plain(t) && Plain(name) && Plain(value) && |value| > 0
    requires t != "int" && t != "long"
    ensures ParseLine(TripleCommand(t, name, value)) == ParamLine([SetItem(name, StrVal(value))])
  {
    TripleLine(t, name, value);
  }

  lemma LongPlain()
    ensures Plain("long")
  {
  }

  lemma TaskWordsPlain()
    ensures Plain("task") && Plain("on")
  {
  }

  lemma TxWordsPlain()
    ensures Plain("str") && Plain("tx_enabled") && Plain("true")
  {
  }

  lemma {:induction false} UdpCommand(host: string)
    requires Plain(host)
    ensures ParseLine(Handshake(host)[0]) == TaskLine([TaskPair("udp", host + ":" + IntToString(ClientPort))])
    ensures ParseEndpoint(host + ":" + IntToString(ClientPort)) == Some(Sessions.Endpoint(host, ClientPort))
  {
    var p := IntToString(ClientPort);
    PlainNumber(ClientPort);
    var value := host + ":" + p;
    assert value[|value| - 1] in p;
    assert Plain("udp");
    PairLine("udp", value);
    EndpointRoundTrip(host, ClientPort);
  }

  /** The sweep: the frequency sent lies in [0, 6 GHz), the TX frequency
      is always 9 MHz above it, and both commands parse as those settings. */
  lemma {:induction false} SweepCommands(g: int, msg: seq<Byte>)
    requires DecodeFrame(msg).Decoded?
    ensures var (_, cmds) := ClientStep(g, msg);
            var g0 := g % SweepLimit;
            && 0 <= g0 < 6000000000
            && |cmds| == 2
            && ParseLine(cmds[0]) == ParamLine([SetItem("tx_frequency", IntVal(g0 + 9000000))])
            && ParseLine(cmds[1]) == ParamLine([SetItem("frequency", IntVal(g0))])
  {
  }

  /** The sweep seen from the server: both retuning lines keep the session
      open and leave the RX frequency at the sweep value and the TX
      frequency 9 MHz above it, each clamped to [70 MHz, 6 GHz]. */
  lemma {:induction false} SweepRetunes(s: Server, sid: Sessions.SessionId, g: int, msg: seq<Byte>)
    requires Admitted(s, sid)
    requires DecodeFrame(msg).Decoded?
    ensures var cmds := ClientStep(g, msg).1;
            var g0 := g % SweepLimit;
            var (s1, alive1) := ProcessLine(s, sid, cmds[0]);
            var (s2, alive2) := ProcessLine(s1, sid, cmds[1]);
            && alive1 && alive2
            && s2.reg["tx_frequency"] == IntVal(Clamp(g0 + 9000000, 70000000, 6000000000))
            && s2.reg["frequency"] == IntVal(Clamp(g0, 70000000, 6000000000))
  {
    var g0 := g % SweepLimit;
    StepLines(g, msg);
    var cmds := ClientStep(g, msg).1;
    FrequencyNamesPlain();
    TuneLine(s, sid, "tx_frequency", g0 + 9000000);
    var a1 := SetParameter(s.reg, "tx_frequency", IntVal(g0 + 9000000));
    var s1 := s.(reg := a1.reg, log := s.log + a1.effects);
    assert ProcessLine(s, sid, cmds[0]) == (s1, true);
    RetuneOne(s.reg, "tx_frequency", g0 + 9000000);
    TuneLine(s1, sid, "frequency", g0);
    var a2 := SetParameter(s1.reg, "frequency", IntVal(g0));
    var s2 := s1.(reg := a2.reg, log := s1.log + a2.effects);
    assert ProcessLine(s1, sid, cmds[1]) == (s2, true);
    RetuneOne(s1.reg, "frequency", g0);
  }

  lemma FrequencyNamesPlain()
    ensures Plain("tx_frequency") && Plain("frequency")
  {
  }

  /** One retuning line, as the server handles it: a single
      `set_parameter` whose writes go to the device log. */
  lemma {:induction false} TuneLine(s: Server, sid: Sessions.SessionId, name: string, n: int)
    requires Admitted(s, sid)
    requires Plain(name)
    ensures var a := SetParameter(s.reg, name, IntVal(n));
            ProcessLine(s, sid, TuneCommand(name, n)) == (s.(reg := a.reg, log := s.log + a.effects), true)
  {
    TuneCommandParses(name, n);
    ParamLineProcessed(s, sid, TuneCommand(name, n), [SetItem(name, IntVal(n))]);
    SingleSet(s, name, IntVal(n));
  }

  lemma {:induction false} ParamLineProcessed(s: Server, sid: Sessions.SessionId, raw: string, items: seq<ParamItem>)
    requires Admitted(s, sid)
    requires ParseLine(raw) == ParamLine(items)
    ensures ProcessLine(s, sid, raw) == ApplyParams(s, items)
  {
  }

  lemma {:induction false} SingleSet(s: Server, name: string, v: Value)
    requires WellFormed(s.reg)
    ensures var a := SetParameter(s.reg, name, v);
            ApplyParams(s, [SetItem(name, v)]) == (s.(reg := a.reg, log := s.log + a.effects), true)
  {
    var a := SetParameter(s.reg, name, v);
    var s1 := s.(reg := a.reg, log := s.log + a.effects);
    assert [SetItem(name, v)][1..] == [];
    assert ApplyParams(s1, []) == (s1, true);
  }

  /** One frequency set stores the clamped value and touches no other
      frequency. */
  lemma {:induction false} RetuneOne(reg: Registry, name: string, x: int)
    requires WellFormed(reg)
    requires name == "frequency" || name == "tx_frequency"
    ensures var r := SetParameter(reg, name, IntVal(x)).reg;
            && r[name] == IntVal(Clamp(x, 70000000, 6000000000))
            && forall n :: n in reg && n != name ==> r[n] == reg[n]
  {
    if IntVal(x) != reg[name] {
      SetClamps(reg, name, x, 70000000, 1, 6000000000);
    }
  }

  /** A whole client session as the server sees it, from any state in
      which the session is admitted: the handshake and one retuning step
      keep the session reading and leave its datagram target installed,
      sampling on, the transmitter enabled and both frequencies stored. */
  lemma {:induction false} ClientSession(s: Server, sid: Sessions.SessionId, host: string, g: int, msg: seq<Byte>)
    requires Admitted(s, sid)
    requires Plain(host)
    requires DecodeFrame(msg).Decoded?
    ensures var r := Converse(s, sid, Handshake(host) + ClientStep(g, msg).1);
            var g0 := g % SweepLimit;
            && Sessions.Lookup(r.table, sid) == Some(Some(Sessions.Target(Sessions.Endpoint(host, ClientPort), false)))
            && r.capture.sampling
            && r.reg["tx_enabled"] == StrVal("true")
            && r.reg["tx_frequency"] == IntVal(Clamp(g0 + 9000000, 70000000, 6000000000))
            && r.reg["frequency"] == IntVal(Clamp(g0, 70000000, 6000000000))
  {
    var g0 := g % SweepLimit;
    var c0 := TuneCommand("tx_frequency", g0 + 9000000);
    var c1 := TuneCommand("frequency", g0);
    var hs := Handshake(host);
    StepLines(g, msg);
    Seqs.ThreeFront(hs, [c0, c1]);
    HandshakeLines(s, sid, host, [c0, c1]);
    var s1 := ProcessLine(s, sid, hs[0]).0;
    var s2 := ProcessLine(s1, sid, hs[1]).0;
    var s3 := ProcessLine(s2, sid, hs[2]).0;
    TuneLines(s3, sid, g0);
  }

  /** The three handshake lines, in front of whatever follows them. */
  lemma {:induction false} HandshakeLines(s: Server, sid: Sessions.SessionId, host: string, rest: seq<string>)
    requires Admitted(s, sid)
    requires Plain(host)
    ensures var hs := Handshake(host);
            var s1 := ProcessLine(s, sid, hs[0]).0;
            var s2 := ProcessLine(s1, sid, hs[1]).0;
            var s3 := ProcessLine(s2, sid, hs[2]).0;
            && Converse(s, sid, [hs[0]] + ([hs[1]] + ([hs[2]] + rest))) == Converse(s3, sid, rest)
            && Sessions.Lookup(s3.table, sid) == Some(Some(Sessions.Target(Sessions.Endpoint(host, ClientPort), false)))
            && s3.capture.sampling
            && s3.reg["tx_enabled"] == StrVal("true")
  {
    var hs := Handshake(host);
    UdpStep(s, sid, host);
    var s1 := ProcessLine(s, sid, hs[0]).0;
    ConverseCons(s, sid, hs[0], [hs[1]] + ([hs[2]] + rest));
    TaskStep(s1, sid, host);
    var s2 := ProcessLine(s1, sid, hs[1]).0;
    ConverseCons(s1, sid, hs[1], [hs[2]] + rest);
    TxStep(s2, sid, host);
    ConverseCons(s2, sid, hs[2], rest);
  }

  /** The two retuning lines, as the last lines of the session. */
  lemma {:induction false} TuneLines(s: Server, sid: Sessions.SessionId, g0: int)
    requires Admitted(s, sid)
    ensures var r := Converse(s, sid, [TuneCommand("tx_frequency", g0 + 9000000), TuneCommand("frequency", g0)]);
            && r.table == s.table && r.capture == s.capture
            && (s.reg["tx_enabled"] == StrVal("true") ==> r.reg["tx_enabled"] == StrVal("true"))
            && r.reg["tx_frequency"] == IntVal(Clamp(g0 + 9000000, 70000000, 6000000000))
            && r.reg["frequency"] == IntVal(Clamp(g0, 70000000, 6000000000))
  {
    var c0 := TuneCommand("tx_frequency", g0 + 9000000);
    var c1 := TuneCommand("frequency", g0);
    Seqs.TwoFront(c0, c1);
    FrequencyNamesPlain();
    TuneStep(s, sid, "tx_frequency", g0 + 9000000);
    var s4 := ProcessLine(s, sid, c0).0;
    ConverseCons(s, sid, c0, [c1] + []);
    TuneStep(s4, sid, "frequency", g0);
    var s5 := ProcessLine(s4, sid, c1).0;
    ConverseCons(s4, sid, c1, []);
    assert Converse(s5, sid, []) == s5;
  }

  /** The same session on a freshly booted server. */
  lemma {:induction false} FreshClientSession(sid: Sessions.SessionId, host: string, g: int, msg: seq<Byte>)
    requires Plain(host)
    requires DecodeFrame(msg).Decoded?
    ensures Connect(Boot(), sid).Some?
    ensures var r := Converse(Connect(Boot(), sid).value, sid, Handshake(host) + ClientStep(g, msg).1);
            var g0 := g % SweepLimit;
            && Sessions.Lookup(r.table, sid) == Some(Some(Sessions.Target(Sessions.Endpoint(host, ClientPort), false)))
            && r.capture.sampling
            && r.reg["tx_enabled"] == StrVal("true")
            && r.reg["tx_frequency"] == IntVal(Clamp(g0 + 9000000, 70000000, 6000000000))
            && r.reg["frequency"] == IntVal(Clamp(g0, 70000000, 6000000000))
  {
    ClientSession(Connect(Boot(), sid).value, sid, host, g, msg);
  }

  /** `*udp=<host>:9527` installs a fresh target and touches nothing else. */
  lemma {:induction false} UdpStep(s: Server, sid: Sessions.SessionId, host: string)
    requires Admitted(s, sid)
    requires Plain(host)
    ensures var (s1, alive) := ProcessLine(s, sid, Handshake(host)[0]);
            && alive && s1.reg == s.reg && s1.capture == s.capture
            && Sessions.Lookup(s1.table, sid) == Some(Some(Sessions.Target(Sessions.Endpoint(host, ClientPort), false)))
  {
    UdpCommand(host);
    var p := TaskPair("udp", host + ":" + IntToString(ClientPort));
    OneTask(s, sid, p);
    UdpReplacesTarget(s, sid, p.value);
  }

  /** `*task=on` starts sampling and touches nothing else. */
  lemma {:induction false} TaskStep(s: Server, sid: Sessions.SessionId, host: string)
    requires Admitted(s, sid)
    ensures var (s1, alive) := ProcessLine(s, sid, Handshake(host)[1]);
            && alive && s1.reg == s.reg && s1.table == s.table && s1.capture.sampling
  {
    TaskOnCommand();
    OneTask(s, sid, TaskPair("task", "on"));
    TaskOnOff(s, sid);
  }

  /** A `*` line of one entry is that entry's `ApplyTask`. */
  lemma {:induction false} OneTask(s: Server, sid: Sessions.SessionId, p: TaskPair)
    requires Admitted(s, sid)
    ensures ApplyTasks(s, sid, [p]) == ApplyTask(s, sid, p)
  {
    assert [p][1..] == [];
  }

  /** `#str:tx_enabled:true` enables the transmitter and touches neither
      the table nor the capture. */
  lemma {:induction false} TxStep(s: Server, sid: Sessions.SessionId, host: string)
    requires Admitted(s, sid)
    ensures var (s1, alive) := ProcessLine(s, sid, Handshake(host)[2]);
            && alive && s1.table == s.table && s1.capture == s.capture
            && s1.reg["tx_enabled"] == StrVal("true")
  {
    TxEnabledCommand();
    var raw := Handshake(host)[2];
    ParamLineProcessed(s, sid, raw, [SetItem("tx_enabled", StrVal("true"))]);
    SingleSet(s, "tx_enabled", StrVal("true"));
    if s.reg["tx_enabled"] == StrVal("true") {
      SetIgnored(s.reg, "tx_enabled", StrVal("true"));
    } else {
      SetTxEnabled(s.reg, "true");
    }
  }

  /** A retuning line stores the clamped frequency, keeps the session
      reading and leaves every other parameter, the table and the capture
      alone. */
  lemma {:induction false} TuneStep(s: Server, sid: Sessions.SessionId, name: string, n: int)
    requires Admitted(s, sid)
    requires name == "frequency" || name == "tx_frequency"
    requires Plain(name)
    ensures var (s1, alive) := ProcessLine(s, sid, TuneCommand(name, n));
            && alive && s1.table == s.table && s1.capture == s.capture
            && s1.reg[name] == IntVal(Clamp(n, 70000000, 6000000000))
            && forall other :: other in s.reg && other != name ==> s1.reg[other] == s.reg[other]
  {
    TuneLine(s, sid, name, n);
    RetuneOne(s.reg, name, n);
  }
}

=== FILE: parameters.dfy ===
/** The device parameter registry: eight named settings, each routed to a
    channel of the `ad9361-phy` control device and guarded by either a
    clamping integer range or a comma-separated token list. The device
    itself is an append-only log of the writes a set would issue. */
module Parameters {
  import opened Wrappers
  import opened Text

  /** A parameter value: the command parser produces integers for
      `int`/`long` entries and strings for every other type. */
  datatype Value = IntVal(i: int) | StrVal(s: string)

  /** `(min, step, max)`, or the tokens of a comma-separated list (see
      `TokenLists`). The step is never consulted. */
  datatype Validator = Range(lo: int, step: int, hi: int) | Tokens(tokens: seq<string>)

  /** The fixed part of a registry entry. */
  datatype Setting = Setting(chan: int, validator: Validator)

  /** One abstract device write: a channel attribute, or the baseband rate
      set through `ad9361_set_bb_rate`. */
  datatype Effect = AttrWrite(chan: int, attr: string, value: string) | BbRate(rate: int)

  /** Current values by name. */
  type Registry = map<string, Value>

  /** Result of one `set_parameter` call. */
  datatype Applied = Applied(reg: Registry, effects: seq<Effect>)

  const Names: set<string> := {
    "frequency", "rf_bandwidth", "sampling_frequency", "gain_control_mode",
    "hardwaregain", "tx_enabled", "tx_frequency", "tx_hardwaregain"
  }

  /** Lowest baseband rate, used when the bandwidth is under `RateThreshold`. */
  const MinRate := 521000
  const RateThreshold := 500000
  /** The largest rate the bandwidth coupling can store: 56000000 * 1.28.
      It is above `sampling_frequency`'s own maximum of 61440000. */
  const CoupledRateMax := 71680000

  function Schema(name: string): (r: Option<Setting>)
    ensures r.Some? <==> name in Names
  {
    if name == "frequency" then Some(Setting(0, Range(70000000, 1, 6000000000)))
    else if name == "rf_bandwidth" then Some(Setting(4, Range(200000, 1, 56000000)))
    else if name == "sampling_frequency" then Some(Setting(4, Range(MinRate, 1, 61440000)))
    else if name == "gain_control_mode" then Some(Setting(4, Tokens(GainModes)))
    else if name == "hardwaregain" then Some(Setting(4, Range(-3, 1, 71)))
    else if name == "tx_enabled" then Some(Setting(1, Tokens(Booleans)))
    else if name == "tx_frequency" then Some(Setting(1, Range(70000000, 1, 6000000000)))
    else if name == "tx_hardwaregain" then Some(Setting(5, Range(-89, 1, 0)))
    else None
  }

  /** The registry as the service constructs it. */
  function Initial(): (reg: Registry)
    ensures WellFormed(reg)
  {
    var reg := map[
      "frequency" := IntVal(101700000),
      "rf_bandwidth" := IntVal(2000000),
      "sampling_frequency" := IntVal(2500000),
      "gain_control_mode" := StrVal("manual"),
      "hardwaregain" := IntVal(-3),
      "tx_enabled" := StrVal("false"),
      "tx_frequency" := IntVal(101700000),
      "tx_hardwaregain" := IntVal(0)];
    reg
  }

  const GainModes: seq<string> := ["manual", "fast_attack", "slow_attack", "hybrid"]
  const Booleans: seq<string> := ["true", "false"]

  /** The token lists are what `str.split(',')` makes of the source's
      validator strings. */
  lemma TokenLists()
    ensures Split("manual,fast_attack,slow_attack,hybrid", ',') == GainModes
    ensures Split("true,false", ',') == Booleans
  {
    GainModeTokens();
    BooleanTokens();
  }

  lemma GainModeTokens()
    ensures Split("manual,fast_attack,slow_attack,hybrid", ',') == GainModes
  {
    GainModesJoin();
    TokensCommaFree();
    SplitJoin(GainModes, ',');
  }

  lemma BooleanTokens()
    ensures Split("true,false", ',') == Booleans
  {
    BooleansJoin();
    TokensCommaFree();
    SplitJoin(Booleans, ',');
  }

  lemma GainModesJoin()
    ensures Join(GainModes, ',') == "manual,fast_attack,slow_attack,hybrid"
  {
    var last: seq<string> := ["hybrid"];
    JoinCons("slow_attack", last, ',');
    var two := ["slow_attack"] + last;
    JoinCons("fast_attack", two, ',');
    var three := ["fast_attack"] + two;
    JoinCons("manual", three, ',');
    assert GainModes == ["manual"] + three;
    var m, f, l, h := "manual", "fast_attack", "slow_attack", "hybrid";
    assert m + [','] + (f + [','] + (l + [','] + h)) == m + [','] + f + [','] + l + [','] + h;
    GainModesText();
  }

  /** The comma-separated spelling of the gain modes. */
  lemma GainModesText()
    ensures "manual" + [','] + "fast_attack" + [','] + "slow_attack" + [','] + "hybrid"
         == "manual,fast_attack,slow_attack,hybrid"
  {
  }

  lemma BooleansJoin()
    ensures Join(Booleans, ',') == "true,false"
  {
  }

  lemma TokensCommaFree()
    ensures forall i :: 0 <= i < |GainModes| ==> ',' !in GainModes[i]
    ensures forall i :: 0 <= i < |Booleans| ==> ',' !in Booleans[i]
  {
  }

  /** The values a parameter can hold. The upper bound of
      `sampling_frequency` is the coupled maximum, not its own. */
  predicate InDomain(name: string, v: Value) {
    match Schema(name)
    case None => false
    case Some(setting) =>
      match setting.validator
      case Range(lo, _, hi) =>
        v.IntVal? && lo <= v.i <= (if name == "sampling_frequency" then CoupledRateMax else hi)
      case Tokens(list) => v.StrVal? && v.s in list
  }

  /** Exactly the eight names, each holding a value of its domain. */
  predicate WellFormed(reg: Registry) {
    reg.Keys == Names && forall n :: n in reg ==> InDomain(n, reg[n])
  }

  /** The value a validator lets through, if any: integers are clamped,
      strings must be a token, and a value of the other kind raises inside
      the guarded block (`None`). */
  function Validate(validator: Validator, v: Value): Option<Value>
  {
    match (validator, v)
    case (Range(lo, _, hi), IntVal(x)) => Some(IntVal(if x < lo then lo else if x > hi then hi else x))
    case (Tokens(list), StrVal(x)) => if x in list then Some(v) else None
    case _ => None
  }

  /** Whether a set goes through: a known name, a value different from the
      current one, and one its validator admits. */
  predicate Accepted(reg: Registry, name: string, v: Value) {
    && Schema(name).Some?
    && name in reg
    && v != reg[name]
    && Validate(Schema(name).value.validator, v).Some?
  }

  /** `str(result)`. */
  function Render(v: Value): string {
    match v
    case IntVal(x) => IntToString(x)
    case StrVal(x) => x
  }

  /** `int(b * 1.28)` for b >= 500000, else the minimum rate. The double
      nearest 1.28 lies slightly above it, so over the bandwidths the
      registry admits the rounded product never drops below the exact one
      and truncation gives the integer quotient `b * 128 / 100`. */
  function CoupledRate(b: int): int {
    if b >= RateThreshold then b * 128 / 100 else MinRate
  }

  /** The device writes issued after the new value is stored. */
  function Writes(name: string, chan: int, result: Value): (r: seq<Effect>)
    ensures forall e :: e in r && e.AttrWrite? ==>
      || e.chan == chan
      || (name == "rf_bandwidth" && e.chan == chan + 1)
      || (name == "tx_enabled" && e.chan == 0)
    ensures forall e :: e in r && e.BbRate? ==> name == "sampling_frequency" || name == "rf_bandwidth"
    ensures Schema(name).Some? && Schema(name).value.chan == chan && InDomain(name, result) ==> r != []
  {
    if chan == 1 || chan == 5 then
      if name == "tx_enabled" then
        [AttrWrite(0, "powerdown", if Render(result) == "true" then "1" else "0"),
         AttrWrite(chan, "powerdown", if Render(result) == "true" then "0" else "1")]
      else if name == "tx_frequency" then [AttrWrite(chan, "frequency", Render(result))]
      else if name == "tx_hardwaregain" then [AttrWrite(chan, "hardwaregain", Render(result))]
      else []
    else if name == "sampling_frequency" then
      (if result.IntVal? then [BbRate(result.i)] else [])
    else if name == "rf_bandwidth" && result.IntVal? then
      [AttrWrite(chan, name, Render(result)),
       AttrWrite(chan + 1, name, Render(result)),
       BbRate(CoupledRate(result.i))]
    else [AttrWrite(chan, name, Render(result))]
  }

  /** `DeviceService.set_parameter(name, value)`. */
  function SetParameter(reg: Registry, name: string, v: Value): (r: Applied)
    requires WellFormed(reg)
    ensures r.reg.Keys == reg.Keys
    ensures WellFormed(r.reg)
    ensures forall n :: n in reg && n != name && !(name == "rf_bandwidth" && n == "sampling_frequency") ==>
      r.reg[n] == reg[n]
    ensures !Accepted(reg, name, v) ==> r == Applied(reg, [])
    ensures Accepted(reg, name, v) ==>
      && r.reg[name] == Validate(Schema(name).value.validator, v).value
      && r.effects != []
  {
    if name !in reg then Applied(reg, [])
    else if v == reg[name] then Applied(reg, [])
    else
      var setting := Schema(name).value;
      match Validate(setting.validator, v)
      case None => Applied(reg, [])
      case Some(result) =>
        ValidateInDomain(name, v);
        StoreWellFormed(reg, name, result);
        var stored := reg[name := result];
        if name == "rf_bandwidth" then
          CoupledRateBounds(result.i);
          StoreWellFormed(stored, "sampling_frequency", IntVal(CoupledRate(result.i)));
          Applied(stored["sampling_frequency" := IntVal(CoupledRate(result.i))], Writes(name, setting.chan, result))
        else Applied(stored, Writes(name, setting.chan, result))
  }

  /** Storing a value of its domain keeps the registry well-formed. */
  lemma {:induction false} StoreWellFormed(reg: Registry, name: string, x: Value)
    requires WellFormed(reg) && name in reg && InDomain(name, x)
    ensures WellFormed(reg[name := x])
  {
  }

  /** What a validator lets through lies in the parameter's domain. */
  lemma {:induction false} ValidateInDomain(name: string, v: Value)
    requires Schema(name).Some? && Validate(Schema(name).value.validator, v).Some?
    ensures InDomain(name, Validate(Schema(name).value.validator, v).value)
  {
  }

  /** The coupled rate of an admissible bandwidth lies in [521000, 71680000]. */
  lemma {:induction false} CoupledRateBounds(b: int)
    requires 200000 <= b <= 56000000
    ensures MinRate <= CoupledRate(b) <= CoupledRateMax
  {
  }

  function Clamp(x: int, lo: int, hi: int): int {
    Max(lo, Min(x, hi))
  }

  function Min(a: int, b: int): int {
    if a <= b then a else b
  }

  function Max(a: int, b: int): int {
    if a >= b then a else b
  }

  /** An integer sent to a range parameter is stored as max(min, min(v, max)),
      whatever the step. */
  lemma {:induction false} SetClamps(reg: Registry, name: string, x: int, lo: int, step: int, hi: int)
    requires WellFormed(reg)
    requires Schema(name).Some? && Schema(name).value.validator == Range(lo, step, hi)
    requires IntVal(x) != reg[name]
    ensures SetParameter(reg, name, IntVal(x)).reg[name] == IntVal(Clamp(x, lo, hi))
  {
  }

  /** The silent no-ops: an unknown name, the current value, a string that
      is not a token, and a value of the wrong kind leave the registry and
      the device untouched. */
  lemma {:induction false} SetIgnored(reg: Registry, name: string, v: Value)
    requires WellFormed(reg)
    requires
      || name !in Names
      || (name in reg && v == reg[name])
      || (Schema(name).Some? && Schema(name).value.validator.Tokens? &&
          (v.IntVal? || v.s !in Schema(name).value.validator.tokens))
      || (Schema(name).Some? && Schema(name).value.validator.Range? && v.StrVal?)
    ensures SetParameter(reg, name, v) == Applied(reg, [])
  {
  }

  /** Setting the RF bandwidth writes it to channels 4 and 5, sets the
      baseband rate to 1.28 times it (or the minimum rate under the
      threshold) and stores that rate as `sampling_frequency`, unclamped
      by that parameter's own range. */
  lemma {:induction false} SetRfBandwidth(reg: Registry, x: int)
    requires WellFormed(reg)
    requires IntVal(x) != reg["rf_bandwidth"]
    ensures var b := Clamp(x, 200000, 56000000);
            var s := if b >= 500000 then b * 128 / 100 else 521000;
            var r := SetParameter(reg, "rf_bandwidth", IntVal(x));
            && r.reg["rf_bandwidth"] == IntVal(b)
            && r.reg["sampling_frequency"] == IntVal(s)
            && r.effects == [AttrWrite(4, "rf_bandwidth", IntToString(b)),
                             AttrWrite(5, "rf_bandwidth", IntToString(b)),
                             BbRate(s)]
            && 521000 <= s <= 71680000
  {
  }

  /** The coupled rate leaves `sampling_frequency`'s own range: the widest
      bandwidth stores 71680000, above its maximum of 61440000. */
  lemma CoupledRateExceedsOwnRange()
    ensures var r := SetParameter(Initial(), "rf_bandwidth", IntVal(56000000));
            && r.reg["sampling_frequency"] == IntVal(71680000)
            && 71680000 > Schema("sampling_frequency").value.validator.hi
  {
  }

  /** Enabling TX powers channel 0 down and channel 1 up; disabling does
      the opposite. */
  lemma {:induction false} SetTxEnabled(reg: Registry, t: string)
    requires WellFormed(reg)
    requires t == "true" || t == "false"
    requires StrVal(t) != reg["tx_enabled"]
    ensures var r := SetParameter(reg, "tx_enabled", StrVal(t));
            && r.reg["tx_enabled"] == StrVal(t)
            && r.effects == [AttrWrite(0, "powerdown", if t == "true" then "1" else "0"),
                             AttrWrite(1, "powerdown", if t == "true" then "0" else "1")]
            && r.effects[0].value != r.effects[1].value
  {
  }

  /** A direct sampling-frequency set only reprograms the baseband rate. */
  lemma {:induction false} SetSamplingFrequency(reg: Registry, x: int)
    requires WellFormed(reg)
    requires IntVal(x) != reg["sampling_frequency"]
    ensures SetParameter(reg, "sampling_frequency", IntVal(x)).effects ==
      [BbRate(Clamp(x, 521000, 61440000))]
  {
  }

  /** Every other accepted set writes exactly its own attribute on its own
      channel: `frequency` on 0, `gain_control_mode` and `hardwaregain` on 4,
      `tx_frequency` as `frequency` on 1 and `tx_hardwaregain` as
      `hardwaregain` on 5. */
  lemma {:induction false} SetSingleAttribute(reg: Registry, name: string, v: Value)
    requires WellFormed(reg)
    requires name in {"frequency", "gain_control_mode", "hardwaregain", "tx_frequency", "tx_hardwaregain"}
    requires Accepted(reg, name, v)
    ensures var r := SetParameter(reg, name, v);
            var attr := if name == "tx_frequency" then "frequency"
                        else if name == "tx_hardwaregain" then "hardwaregain"
                        else name;
            r.effects == [AttrWrite(Schema(name).value.chan, attr, Render(r.reg[name]))]
  {
  }

  /** Sending the same value twice leaves the registry as sending it once;
      when the value was already inside the range, the second send writes
      nothing to the device. */
  lemma {:induction false} SetIdempotent(reg: Registry, name: string, v: Value)
    requires WellFormed(reg)
    ensures var once := SetParameter(reg, name, v);
            var twice := SetParameter(once.reg, name, v);
            && twice.reg == once.reg
            && (Accepted(reg, name, v) && once.reg[name] == v ==> twice.effects == [])
  {
    var once := SetParameter(reg, name, v);
    if Accepted(reg, name, v) {
      var c := Validate(Schema(name).value.validator, v).value;
      assert name == "rf_bandwidth" ==> once.reg["sampling_frequency"] == IntVal(CoupledRate(c.i));
      SetStable(once.reg, name, v);
    }
  }

  /** Setting a value whose validated form is already stored (together with
      its coupled sampling rate) changes nothing in the registry. */
  lemma {:induction false} SetStable(reg: Registry, name: string, v: Value)
    requires WellFormed(reg) && name in reg && Schema(name).Some?
    requires Validate(Schema(name).value.validator, v) == Some(reg[name])
    requires name == "rf_bandwidth" ==> reg["sampling_frequency"] == IntVal(CoupledRate(reg[name].i))
    ensures SetParameter(reg, name, v).reg == reg
  {
    if v != reg[name] {
      var c := reg[name];
      assert reg[name := c] == reg;
      if name == "rf_bandwidth" {
        assert reg[name := c]["sampling_frequency" := IntVal(CoupledRate(c.i))] == reg;
      }
    }
  }

}

=== FILE: protocol.dfy ===
/** The TCP command protocol of `NetworkService`: the line grammar
    (`*key=value;...` and `#type:name:value;...`), and what a session does
    to the server's state — registry, device log, capture flags and session
    table — one line at a time, until its connection ends. */
module Protocol {
  import opened Wrappers
  import opened Text
  import opened Parameters
  import opened Capture
  import opened Sessions
  import opened Seqs

  /** One `key=value` entry of a `*` line. */
  datatype TaskPair = TaskPair(key: string, value: string)

  /** One `type:name:value` entry of a `#` line: the value converted as its
      type says, or an integer type whose text `int()` rejects. */
  datatype ParamItem = SetItem(name: string, value: Value) | BadNumber(name: string, text: string)

  datatype Command =
    | Undecodable                  // a non-ASCII byte: decoding raises, the session ends
    | Blank                        // nothing left after stripping (also end of stream): the session ends
    | TaskLine(pairs: seq<TaskPair>)
    | ParamLine(items: seq<ParamItem>)
    | Ignored                      // any other first character

  /** The `key=value` entries; a part whose `=`-split does not have exactly
      two fields is skipped. */
  function TaskPairs(parts: seq<string>): seq<TaskPair>
  {
    Concat(seq(|parts|, i requires 0 <= i < |parts| => PartPairs(parts[i])))
  }

  /** What one `;`-separated part of a `*` line contributes. */
  function PartPairs(part: string): seq<TaskPair> {
    var kv := Split(part, '=');
    if |kv| == 2 then [TaskPair(kv[0], kv[1])] else []
  }

  function ParamItemOf(fields: seq<string>): ParamItem
    requires |fields| == 3
  {
    if fields[0] == "int" || fields[0] == "long" then
      match ParseInt(fields[2])
      case Some(n) => SetItem(fields[1], IntVal(n))
      case None => BadNumber(fields[1], fields[2])
    else SetItem(fields[1], StrVal(fields[2]))
  }

  /** The `type:name:value` entries; a part whose `:`-split does not have
      exactly three fields is skipped. */
  function ParamItems(parts: seq<string>): seq<ParamItem>
  {
    Concat(seq(|parts|, i requires 0 <= i < |parts| => PartItems(parts[i])))
  }

  /** What one `;`-separated part of a `#` line contributes. */
  function PartItems(part: string): seq<ParamItem> {
    var fields := Split(part, ':');
    if |fields| == 3 then [ParamItemOf(fields)] else []
  }

  /** `fd.readline().lower().decode('ascii').strip()`, dispatched on its
      first character. */
  function ParseLine(raw: string): Command
  {
    if !IsAscii(raw) then Undecodable
    else
      var request := Strip(Lower(raw));
      if |request| > 0 && request[0] == '*' then TaskLine(TaskPairs(Split(request[1..], ';')))
      else if |request| > 0 && request[0] == '#' then ParamLine(ParamItems(Split(request[1..], ';')))
      else if |request| == 0 then Blank
      else Ignored
  }

  /** How a raw line is classified: undecodable exactly when it is not
      ASCII, blank exactly when nothing is left of it, ignored exactly when
      what is left starts with neither `*` nor `#`.  Stated apart from
      `ParseLine` so that parsing a concrete line does not drag these
      facts in. */
  lemma {:induction false} ParseLineKinds(raw: string)
    ensures ParseLine(raw).Undecodable? <==> !IsAscii(raw)
    ensures ParseLine(raw).Blank? <==> IsAscii(raw) && Strip(Lower(raw)) == ""
    ensures ParseLine(raw).TaskLine? || ParseLine(raw).ParamLine? ==>
      IsAscii(raw) && |Strip(Lower(raw))| > 0
    ensures ParseLine(raw).Ignored? <==>
      IsAscii(raw) && |Strip(Lower(raw))| > 0 && Strip(Lower(raw))[0] != '*' && Strip(Lower(raw))[0] != '#'
  {
    var c := ParseLine(raw);
    if IsAscii(raw) {
      var request := Strip(Lower(raw));
      if |request| == 0 {
        assert c == Blank;
      } else if request[0] == '*' {
        assert c.TaskLine?;
      } else if request[0] == '#' {
        assert c.ParamLine?;
      } else {
        assert c == Ignored;
      }
    }
  }

  /** Commands are case-insensitive: the line is lower-cased before it is
      decoded, so lower-casing it first changes nothing. */
  lemma {:induction false} ParseLineLower(raw: string)
    ensures ParseLine(Lower(raw)) == ParseLine(raw)
  {
    var low := Lower(raw);
    LowerIdentity(low);
    assert IsAscii(low) <==> IsAscii(raw) by {
      if IsAscii(raw) {
        forall c | c in low ensures c as int < 128 {
          var i :| 0 <= i < |low| && low[i] == c;
          assert raw[i] in raw;
        }
      }
      if IsAscii(low) {
        forall c | c in raw ensures c as int < 128 {
          var i :| 0 <= i < |raw| && raw[i] == c;
          assert low[i] in low;
        }
      }
    }
  }

  /** `host, port = value.split(':')` and the port check of `connect`:
      exactly two fields, an integer port in [0, 65535]. */
  function ParseEndpoint(value: string): (r: Option<Endpoint>)
    ensures r.Some? ==> 0 <= r.value.port <= 65535 && ':' !in r.value.host
  {
    var hp := Split(value, ':');
    if |hp| != 2 then None
    else
      match ParseInt(hp[1])
      case None => None
      case Some(port) => if 0 <= port <= 65535 then Some(Endpoint(hp[0], port)) else None
  }

  /** A port holding a separator control is refused, so `udp=` installs no
      target for it (`int(port)` raises inside the guarded block). */
  lemma {:induction false} SeparatorPortRejected(host: string, port: string, k: nat)
    requires ':' !in host && ':' !in port
    requires k < |port| && IsSeparator(port[k])
    ensures ParseEndpoint(host + ":" + port) == None
  {
    assert Join([host, port], ':') == host + ":" + port;
    SplitJoin([host, port], ':');
    SeparatorRejected(port, k);
  }

  /** Everything the command side of the server holds. */
  datatype Server = Server(reg: Registry, log: seq<Effect>, capture: CaptureState, table: Table)

  predicate Valid(s: Server) {
    WellFormed(s.reg) && Distinct(s.table) && |s.table| <= Capacity
  }

  /** A valid server on which the session `sid` has been admitted. */
  predicate Admitted(s: Server, sid: SessionId) {
    Valid(s) && Lookup(s.table, sid).Some?
  }

  function Boot(): (s: Server)
    ensures Valid(s)
  {
    Server(Initial(), [], Idle, [])
  }

  /** Accepting a connection: refused at capacity, registered otherwise. */
  function Connect(s: Server, sid: SessionId): (r: Option<Server>)
    requires Valid(s)
    ensures r.None? <==> |s.table| == Capacity
    ensures r.Some? ==> Admitted(r.value, sid) && Lookup(r.value.table, sid) == Some(None)
  {
    match Admit(s.table, sid)
    case None => None
    case Some(t) => Some(s.(table := t))
  }

  /** One `*` entry. `udp=` first closes the session's current socket, then
      installs a new one if the address parses; when it does not, the closed
      socket stays in the table. `task=on` and `task=off` start and stop the
      capture; every other key or value does nothing. */
  function ApplyTask(s: Server, sid: SessionId, p: TaskPair): (r: Server)
    requires Admitted(s, sid)
    ensures Admitted(r, sid)
    ensures r.reg == s.reg && r.log == s.log
    ensures Ids(r.table) == Ids(s.table)
    ensures forall other :: other != sid ==> Lookup(r.table, other) == Lookup(s.table, other)
    ensures p.key != "udp" && p.key != "task" ==> r == s
    ensures p.key == "task" && p.value != "on" && p.value != "off" ==> r == s
    ensures p.key != "udp" ==> r.table == s.table
  {
    if p.key == "udp" then
      var table1 := CloseTarget(s.table, sid);
      match ParseEndpoint(p.value)
      case None => s.(table := table1)
      case Some(ep) =>
        PutDistinct(table1, sid, Some(Target(ep, false)));
        s.(table := Put(table1, sid, Some(Target(ep, false))))
    else if p.key == "task" then
      if p.value == "on" then s.(capture := Start(s.capture).0)
      else if p.value == "off" then s.(capture := Stop(s.capture))
      else s
    else s
  }

  /** `close()` on the session's current socket, which stays in the table. */
  function CloseTarget(t: Table, sid: SessionId): (t': Table)
    requires Distinct(t) && Lookup(t, sid).Some?
    ensures Distinct(t') && Ids(t') == Ids(t)
    ensures Lookup(t', sid) ==
      Some(if Lookup(t, sid).value.Some? then Some(Lookup(t, sid).value.value.(closed := true)) else None)
    ensures forall other :: other != sid ==> Lookup(t', other) == Lookup(t, other)
  {
    match Lookup(t, sid).value
    case None => t
    case Some(target) =>
      PutDistinct(t, sid, Some(target.(closed := true)));
      Put(t, sid, Some(target.(closed := true)))
  }

  function ApplyTasks(s: Server, sid: SessionId, pairs: seq<TaskPair>): (r: Server)
    requires Admitted(s, sid)
    ensures Admitted(r, sid)
    ensures r.reg == s.reg && r.log == s.log
    ensures Ids(r.table) == Ids(s.table)
    ensures forall other :: other != sid ==> Lookup(r.table, other) == Lookup(s.table, other)
    decreases |pairs|
  {
    if |pairs| == 0 then s else ApplyTasks(ApplyTask(s, sid, pairs[0]), sid, pairs[1..])
  }

  /** The entries of a `#` line in order, each a `set_parameter` call whose
      writes are appended to the device log. An integer that does not parse
      raises out of the loop: the entries before it stay applied, the rest
      are dropped and the session ends (`false`). */
  function ApplyParams(s: Server, items: seq<ParamItem>): (r: (Server, bool))
    requires WellFormed(s.reg)
    ensures WellFormed(r.0.reg)
    ensures r.0.table == s.table && r.0.capture == s.capture
    ensures r.1 <==> forall i :: 0 <= i < |items| ==> items[i].SetItem?
    ensures |s.log| <= |r.0.log| && r.0.log[..|s.log|] == s.log
    decreases |items|
  {
    if |items| == 0 then (s, true)
    else
      match items[0]
      case BadNumber(_, _) => (s, false)
      case SetItem(name, v) =>
        var a := SetParameter(s.reg, name, v);
        var s1 := s.(reg := a.reg, log := s.log + a.effects);
        var r := ApplyParams(s1, items[1..]);
        assert r.0.log[..|s.log|] == r.0.log[..|s1.log|][..|s.log|];
        assert (forall i :: 0 <= i < |items| ==> items[i].SetItem?) <==>
               (forall i :: 0 <= i < |items| - 1 ==> items[1..][i].SetItem?);
        r
  }

  /** One line of a session: whether the session goes on reading. It goes
      on after a `*` line, an ignored line, and a `#` line whose integers
      all convert; a `*` line applies its entries, a `#` line its settings,
      and an ignored line nothing. */
  function ProcessLine(s: Server, sid: SessionId, raw: string): (r: (Server, bool))
    requires Admitted(s, sid)
    ensures r.1 <==> || ParseLine(raw).TaskLine?
                     || ParseLine(raw).Ignored?
                     || (ParseLine(raw).ParamLine? &&
                         forall i :: 0 <= i < |ParseLine(raw).items| ==> ParseLine(raw).items[i].SetItem?)
    ensures ParseLine(raw).TaskLine? ==> r.0 == ApplyTasks(s, sid, ParseLine(raw).pairs)
    ensures ParseLine(raw).ParamLine? ==> r.0 == ApplyParams(s, ParseLine(raw).items).0
    ensures !ParseLine(raw).TaskLine? && !ParseLine(raw).ParamLine? ==> r.0 == s
    ensures Admitted(r.0, sid)
    ensures Ids(r.0.table) == Ids(s.table)
    ensures forall other :: other != sid ==> Lookup(r.0.table, other) == Lookup(s.table, other)
    ensures |s.log| <= |r.0.log| && r.0.log[..|s.log|] == s.log
  {
    match ParseLine(raw)
    case Undecodable => (s, false)
    case Blank => (s, false)
    case Ignored => (s, true)
    case TaskLine(pairs) => (ApplyTasks(s, sid, pairs), true)
    case ParamLine(items) => ApplyParams(s, items)
  }

  /** Lines until one ends the session or the stream ends. */
  function Converse(s: Server, sid: SessionId, lines: seq<string>): (r: Server)
    requires Admitted(s, sid)
    ensures Admitted(r, sid)
    ensures Ids(r.table) == Ids(s.table)
    ensures forall other :: other != sid ==> Lookup(r.table, other) == Lookup(s.table, other)
    ensures |s.log| <= |r.log| && r.log[..|s.log|] == s.log
    decreases |lines|
  {
    if |lines| == 0 then s
    else
      var (s1, alive) := ProcessLine(s, sid, lines[0]);
      if alive then Converse(s1, sid, lines[1..]) else s1
  }

  /** Every line of `lines` keeps the session reading. */
  predicate KeepsReading(s: Server, sid: SessionId, lines: seq<string>)
    requires Admitted(s, sid)
    decreases |lines|
  {
    || |lines| == 0
    || (var (s1, alive) := ProcessLine(s, sid, lines[0]);
        alive && KeepsReading(s1, sid, lines[1..]))
  }

  /** Lines apply in order: after a run of lines that keep the session
      reading, the conversation carries on from the state they left. */
  lemma {:induction false} ConverseAppend(s: Server, sid: SessionId, a: seq<string>, b: seq<string>)
    requires Admitted(s, sid)
    requires KeepsReading(s, sid, a)
    ensures Admitted(Converse(s, sid, a), sid)
    ensures Converse(s, sid, a + b) == Converse(Converse(s, sid, a), sid, b)
    decreases |a|
  {
    if |a| == 0 {
      assert a + b == b;
    } else {
      var (s1, alive) := ProcessLine(s, sid, a[0]);
      assert alive && KeepsReading(s1, sid, a[1..]);
      TailAppend(a, b);
      assert Converse(s, sid, a) == Converse(s1, sid, a[1..]);
      assert Converse(s, sid, a + b) == Converse(s1, sid, a[1..] + b);
      ConverseAppend(s1, sid, a[1..], b);
    }
  }

  /** A line that keeps the session reading hands its state to the rest. */
  lemma {:induction false} ConverseCons(s: Server, sid: SessionId, line: string, rest: seq<string>)
    requires Admitted(s, sid)
    requires ProcessLine(s, sid, line).1
    ensures Converse(s, sid, [line] + rest) == Converse(ProcessLine(s, sid, line).0, sid, rest)
  {
    TailAppend([line], rest);
  }

  /** The first line that ends the session is the last one applied: what
      follows it is never read. */
  lemma {:induction false} ConverseStops(s: Server, sid: SessionId, a: seq<string>, line: string, b: seq<string>)
    requires Admitted(s, sid)
    requires KeepsReading(s, sid, a)
    requires !ProcessLine(Converse(s, sid, a), sid, line).1
    ensures Converse(s, sid, a + [line] + b) == ProcessLine(Converse(s, sid, a), sid, line).0
  {
    AppendAssoc(a, [line], b);
    ConverseAppend(s, sid, a, [line] + b);
    TailAppend([line], b);
  }

  /** `__process_client`: converse, then `__remove_data_transmission`. */
  function Session(s: Server, sid: SessionId, lines: seq<string>): (r: Server)
    requires Admitted(s, sid)
    ensures Valid(r)
    ensures Lookup(r.table, sid) == None
    ensures forall other :: other != sid ==> Lookup(r.table, other) == Lookup(s.table, other)
  {
    var s1 := Converse(s, sid, lines);
    s1.(table := Remove(s1.table, sid))
  }

  /** A line of whitespace ends the session and changes nothing. */
  lemma {:induction false} BlankLineEndsSession(s: Server, sid: SessionId, raw: string)
    requires Admitted(s, sid)
    requires forall i :: 0 <= i < |raw| ==> IsSpace(raw[i])
    ensures ProcessLine(s, sid, raw) == (s, false)
  {
    var low := Lower(raw);
    assert forall i :: 0 <= i < |low| ==> IsSpace(low[i]);
    StripBlank(low);
    assert IsAscii(raw) by {
      forall c | c in raw ensures c as int < 128 {
        var i :| 0 <= i < |raw| && raw[i] == c;
      }
    }
  }

  lemma {:induction false} ParamItemsAppend(a: seq<string>, b: seq<string>)
    ensures ParamItems(a + b) == ParamItems(a) + ParamItems(b)
  {
    var pa := seq(|a|, i requires 0 <= i < |a| => PartItems(a[i]));
    var pb := seq(|b|, i requires 0 <= i < |b| => PartItems(b[i]));
    assert seq(|a + b|, i requires 0 <= i < |a + b| => PartItems((a + b)[i])) == pa + pb;
    ConcatAppend(pa, pb);
  }

  lemma {:induction false} TaskPairsAppend(a: seq<string>, b: seq<string>)
    ensures TaskPairs(a + b) == TaskPairs(a) + TaskPairs(b)
  {
    var pa := seq(|a|, i requires 0 <= i < |a| => PartPairs(a[i]));
    var pb := seq(|b|, i requires 0 <= i < |b| => PartPairs(b[i]));
    assert seq(|a + b|, i requires 0 <= i < |a + b| => PartPairs((a + b)[i])) == pa + pb;
    ConcatAppend(pa, pb);
  }

  /** A `#` entry without exactly three `:` fields contributes nothing: the
      entries around it are parsed as if it were absent. */
  lemma {:induction false} MalformedTripleSkipped(before: seq<string>, bad: string, after: seq<string>)
    requires |Split(bad, ':')| != 3
    ensures ParamItems(before + [bad] + after) == ParamItems(before) + ParamItems(after)
  {
    ParamItemsAppend(before + [bad], after);
    ParamItemsAppend(before, [bad]);
  }

  /** A `*` entry without exactly two `=` fields contributes nothing. */
  lemma {:induction false} MalformedPairSkipped(before: seq<string>, bad: string, after: seq<string>)
    requires |Split(bad, '=')| != 2
    ensures TaskPairs(before + [bad] + after) == TaskPairs(before) + TaskPairs(after)
  {
    TaskPairsAppend(before + [bad], after);
    TaskPairsAppend(before, [bad]);
  }

  /** Integer types go through `int()`, every other type passes the text. */
  lemma {:induction false} TripleConversion(t: string, name: string, value: string)
    ensures var item := ParamItemOf([t, name, value]);
            && (t != "int" && t != "long" ==> item == SetItem(name, StrVal(value)))
            && ((t == "int" || t == "long") && ParseInt(value).Some? ==>
                  item == SetItem(name, IntVal(ParseInt(value).value)))
            && ((t == "int" || t == "long") && ParseInt(value).None? ==>
                  item == BadNumber(name, value))
  {
  }

  lemma {:induction false} ApplyParamsAppend(s: Server, a: seq<ParamItem>, b: seq<ParamItem>)
    requires WellFormed(s.reg)
    requires forall i :: 0 <= i < |a| ==> a[i].SetItem?
    ensures ApplyParams(s, a + b) == ApplyParams(ApplyParams(s, a).0, b)
    decreases |a|
  {
    if |a| == 0 {
      assert a + b == b;
    } else {
      assert (a + b)[0] == a[0];
      assert (a + b)[1..] == a[1..] + b;
      var a0 := SetParameter(s.reg, a[0].name, a[0].value);
      ApplyParamsAppend(s.(reg := a0.reg, log := s.log + a0.effects), a[1..], b);
    }
  }

  /** An unparsable integer stops the line where it stands: the entries
      before it are applied, none after it, and the session ends. */
  lemma {:induction false} BadNumberStopsLine(s: Server, before: seq<ParamItem>, name: string, text: string,
                           after: seq<ParamItem>)
    requires WellFormed(s.reg)
    requires forall i :: 0 <= i < |before| ==> before[i].SetItem?
    ensures ApplyParams(s, before + [BadNumber(name, text)] + after) ==
            (ApplyParams(s, before).0, false)
  {
    assert before + [BadNumber(name, text)] + after == before + ([BadNumber(name, text)] + after);
    ApplyParamsAppend(s, before, [BadNumber(name, text)] + after);
  }

  /** A `udp=` entry with a good address replaces this session's target
      with a fresh socket to that address, whatever it held before. */
  lemma {:induction false} UdpReplacesTarget(s: Server, sid: SessionId, value: string)
    requires Admitted(s, sid)
    requires ParseEndpoint(value).Some?
    ensures Lookup(ApplyTask(s, sid, TaskPair("udp", value)).table, sid) ==
            Some(Some(Target(ParseEndpoint(value).value, false)))
  {
  }

  /** With a bad address the old socket is closed but left in place, so the
      next broadcast to it fails and clears it. */
  lemma {:induction false} UdpBadAddressClosesOld(s: Server, sid: SessionId, value: string, previous: Target)
    requires Admitted(s, sid)
    requires Lookup(s.table, sid) == Some(Some(previous))
    requires ParseEndpoint(value).None?
    ensures Lookup(ApplyTask(s, sid, TaskPair("udp", value)).table, sid) ==
            Some(Some(previous.(closed := true)))
  {
  }

  /** `task=on` starts sampling (creating the worker only if it is
      missing); `task=off` only clears the flag. */
  lemma {:induction false} TaskOnOff(s: Server, sid: SessionId)
    requires Admitted(s, sid)
    ensures var on := ApplyTask(s, sid, TaskPair("task", "on")).capture;
            on.sampling && on.workerExists
    ensures var off := ApplyTask(s, sid, TaskPair("task", "off")).capture;
            !off.sampling && off.workerExists == s.capture.workerExists
    ensures ApplyTask(s, sid, TaskPair("task", "on")).table == s.table
  {
  }
}

=== FILE: seqs.dfy ===
/** Flattening a sequence of sequences, shared by the frame segmentation
    and the line parsers. */
module Seqs {

  function Concat<T>(ss: seq<seq<T>>): (r: seq<T>)
    ensures |ss| == 1 ==> r == ss[0]
  {
    if |ss| == 0 then [] else ss[0] + Concat(ss[1..])
  }

  /** Flattening distributes over concatenation. */
  lemma {:induction false} ConcatAppend<T>(a: seq<seq<T>>, b: seq<seq<T>>)
    ensures Concat(a + b) == Concat(a) + Concat(b)
    decreases |a|
  {
    if |a| == 0 {
      assert a + b == b;
    } else {
      assert (a + b)[1..] == a[1..] + b;
      ConcatAppend(a[1..], b);
    }
  }

  /** Dropping the head of a non-empty front part. */
  lemma TailAppend<T>(a: seq<T>, b: seq<T>)
    requires |a| > 0
    ensures (a + b)[0] == a[0]
    ensures (a + b)[1..] == a[1..] + b
  {
  }

  lemma AppendAssoc<T>(a: seq<T>, b: seq<T>, c: seq<T>)
    ensures a + b + c == a + (b + c)
  {
  }

  /** A three-element front part, taken apart one element at a time. */
  lemma ThreeFront<T>(a: seq<T>, b: seq<T>)
    requires |a| == 3
    ensures a + b == [a[0]] + ([a[1]] + ([a[2]] + b))
  {
  }

  lemma TwoFront<T>(x: T, y: T)
    ensures [x, y] == [x] + ([y] + [])
  {
  }
}

=== FILE: sessions.dfy ===
/** `NetworkService`'s session table: one entry per admitted command
    connection, in admission order, holding that session's UDP target if it
    has one. Broadcasting walks the table in that order. */
module Sessions {
  import opened Wrappers
  import opened Wire

  /** The key the source takes from `id(client_socket)`. */
  type SessionId = nat

  datatype Endpoint = Endpoint(host: string, port: int)

  /** A connected UDP socket. `closed` marks one whose `close()` was called
      while it stayed in the table (a `udp=` request whose new address
      failed); sending on it always fails. */
  datatype Target = Target(endpoint: Endpoint, closed: bool)

  datatype Entry = Entry(id: SessionId, target: Option<Target>)

  /** A dictionary in insertion order. */
  type Table = seq<Entry>

  /** One datagram handed to a session's socket. */
  datatype Delivery = Delivery(session: SessionId, to: Endpoint, data: seq<Byte>)

  const Capacity := 3

  function Ids(t: Table): (ids: seq<SessionId>)
    ensures |ids| == |t| && forall i :: 0 <= i < |t| ==> ids[i] == t[i].id
  {
    if |t| == 0 then [] else [t[0].id] + Ids(t[1..])
  }

  predicate Distinct(t: Table) {
    forall i, j :: 0 <= i < j < |t| ==> t[i].id != t[j].id
  }

  /** The table's value for a key: `None` when the key is absent. */
  function Lookup(t: Table, id: SessionId): Option<Option<Target>>
  {
    if |t| == 0 then None
    else if t[0].id == id then Some(t[0].target)
    else Lookup(t[1..], id)
  }

  /** `table[id] = target`: overwrite in place, or append a new key. */
  function Put(t: Table, id: SessionId, target: Option<Target>): (t': Table)
    ensures Lookup(t', id) == Some(target)
    ensures forall other :: other != id ==> Lookup(t', other) == Lookup(t, other)
    ensures Lookup(t, id).Some? ==> Ids(t') == Ids(t)
    ensures Lookup(t, id).None? ==> Ids(t') == Ids(t) + [id]
  {
    if |t| == 0 then [Entry(id, target)]
    else if t[0].id == id then [Entry(id, target)] + t[1..]
    else
      var rest := Put(t[1..], id, target);
      assert ([t[0]] + rest)[1..] == rest;
      [t[0]] + rest
  }

  /** Keys stay unique under `Put`. */
  lemma {:induction false} PutDistinct(t: Table, id: SessionId, target: Option<Target>)
    ensures Distinct(t) ==> Distinct(Put(t, id, target))
  {
    var t' := Put(t, id, target);
    LookupAbsent(t, id);
    assert forall i :: 0 <= i < |t'| ==> Ids(t')[i] == t'[i].id;
  }

  lemma {:induction false} LookupAbsent(t: Table, id: SessionId)
    ensures Lookup(t, id).None? <==> id !in Ids(t)
  {
    if |t| > 0 {
      LookupAbsent(t[1..], id);
      assert Ids(t) == [t[0].id] + Ids(t[1..]);
    }
  }

  /** Admission at accept time: refused when the table already holds
      `Capacity` sessions, otherwise the session is registered with no
      target. Registering here, rather than later in the session's own
      worker, closes the window the source leaves between check and
      registration. */
  function Admit(t: Table, id: SessionId): (r: Option<Table>)
    ensures r.None? <==> |t| == Capacity
    ensures r.Some? ==> Lookup(r.value, id) == Some(None)
    ensures r.Some? ==> forall other :: other != id ==> Lookup(r.value, other) == Lookup(t, other)
    ensures r.Some? && Distinct(t) && |t| <= Capacity ==> Distinct(r.value) && |r.value| <= Capacity
  {
    if |t| == Capacity then None
    else
      PutDistinct(t, id, None);
      Some(Put(t, id, None))
  }

  /** Admission as the source orders it: `accept` compares the table size
      with `Capacity` (`== 3`) and starts a worker, and the worker
      registers its session later. `pending` holds the accepted sessions
      whose worker has not registered yet. */
  datatype AdmissionEvent = AcceptConnection(id: SessionId) | RegisterSession(id: SessionId)

  function AdmitAsWritten(t: Table, pending: set<SessionId>, e: AdmissionEvent): (r: (Table, set<SessionId>))
    ensures e.AcceptConnection? ==> r.0 == t && r.1 - {e.id} == pending - {e.id}
    ensures e.AcceptConnection? ==> (e.id in r.1 <==> e.id in pending || |t| != Capacity)
    ensures e.RegisterSession? && e.id in pending ==> Lookup(r.0, e.id) == Some(None) && r.1 == pending - {e.id}
    ensures e.RegisterSession? && e.id !in pending ==> r == (t, pending)
  {
    match e
    case AcceptConnection(id) => if |t| == Capacity then (t, pending) else (t, pending + {id})
    case RegisterSession(id) => if id in pending then (Put(t, id, None), pending - {id}) else (t, pending)
  }

  function AdmitAllAsWritten(t: Table, pending: set<SessionId>, es: seq<AdmissionEvent>): (Table, set<SessionId>)
    decreases |es|
  {
    if |es| == 0 then (t, pending)
    else
      var (t1, p1) := AdmitAsWritten(t, pending, es[0]);
      AdmitAllAsWritten(t1, p1, es[1..])
  }

  /** With two sessions registered, two connections accepted before either
      worker runs both pass the size check, the table reaches four
      sessions, and the next connection is admitted too (`RaceForever`
      extends this to every later connection). */
  lemma AdmissionRace()
    ensures var t := [Entry(1, None), Entry(2, None)];
            var es := [AcceptConnection(3), AcceptConnection(4), RegisterSession(3), RegisterSession(4)];
            var (t', p') := AdmitAllAsWritten(t, {}, es);
            && |t'| == Capacity + 1
            && AdmitAsWritten(t', p', AcceptConnection(5)).1 == p' + {5}
  {
    var t := [Entry(1, None), Entry(2, None)];
    var (t1, p1) := AdmitAsWritten(t, {}, AcceptConnection(3));
    assert t1 == t && p1 == {3};
    var (t2, p2) := AdmitAsWritten(t1, p1, AcceptConnection(4));
    assert t2 == t && p2 == {3, 4};
    var (t3, p3) := AdmitAsWritten(t2, p2, RegisterSession(3));
    assert Lookup(t, 3).None? && |t3| == 3 && p3 == {4};
    var (t4, p4) := AdmitAsWritten(t3, p3, RegisterSession(4));
    assert Lookup(t3, 4).None? && |t4| == 4 && p4 == {};
    var es := [AcceptConnection(3), AcceptConnection(4), RegisterSession(3), RegisterSession(4)];
    assert es[1..][1..][1..][1..] == [];
  }
  /** Once the table is above capacity, no run of accepts and registrations
      brings it back down, and every later connection passes the size check. */
  lemma {:induction false} RaceForever(t: Table, pending: set<SessionId>, es: seq<AdmissionEvent>)
    requires |t| > Capacity
    ensures var (t', p') := AdmitAllAsWritten(t, pending, es);
            && |t'| >= |t|
            && forall id :: AdmitAsWritten(t', p', AcceptConnection(id)).1 == p' + {id}
    decreases |es|
  {
    if |es| > 0 {
      var (t1, p1) := AdmitAsWritten(t, pending, es[0]);
      if es[0].RegisterSession? && es[0].id in pending {
        assert |Ids(t1)| >= |Ids(t)|;
      }
      RaceForever(t1, p1, es[1..]);
    }
  }

  /** The corrected admission never lets the table grow past `Capacity`,
      whatever the order of connections. */
  function AdmitAll(t: Table, ids: seq<SessionId>): (r: Table)
    requires Distinct(t) && |t| <= Capacity
    ensures Distinct(r) && |r| <= Capacity
    ensures forall id :: Lookup(t, id).Some? ==> Lookup(r, id).Some?
    decreases |ids|
  {
    if |ids| == 0 then t
    else
      match Admit(t, ids[0])
      case None => AdmitAll(t, ids[1..])
      case Some(t1) => AdmitAll(t1, ids[1..])
  }

  /** `del table[id]` when present. */
  function Remove(t: Table, id: SessionId): (t': Table)
    ensures Lookup(t', id) == None
    ensures forall other :: other != id ==> Lookup(t', other) == Lookup(t, other)
    ensures forall e :: e in t' <==> e in t && e.id != id
    ensures |t'| <= |t|
    ensures Distinct(t) ==> Distinct(t')
  {
    if |t| == 0 then []
    else if t[0].id == id then Remove(t[1..], id)
    else
      var rest := Remove(t[1..], id);
      if Distinct(t) then DistinctCons(t, rest); [t[0]] + rest
      else [t[0]] + rest
  }

  /** Putting a table's head back in front of entries drawn from its tail
      keeps the ids distinct. */
  lemma {:induction false} DistinctCons(t: Table, rest: Table)
    requires |t| > 0 && Distinct(t) && Distinct(rest)
    requires forall e :: e in rest ==> e in t[1..]
    ensures Distinct([t[0]] + rest)
  {
    var s := [t[0]] + rest;
    forall i, j | 0 <= i < j < |s| ensures s[i].id != s[j].id {
      if i == 0 {
        assert rest[j - 1] in t[1..];
        var k :| 0 <= k < |t[1..]| && t[1..][k] == rest[j - 1];
        assert t[k + 1] == rest[j - 1];
      } else {
        assert s[i] == rest[i - 1] && s[j] == rest[j - 1];
      }
    }
  }

  /** Whether sending to this entry raises: it has a target and the socket
      is closed or the transport reports failure. */
  predicate Fails(e: Entry, failing: set<SessionId>) {
    e.target.Some? && (e.target.value.closed || e.id in failing)
  }

  predicate Healthy(e: Entry, failing: set<SessionId>) {
    e.target.Some? && !Fails(e, failing)
  }

  /** `xs` is `ys` with some elements left out, order kept. */
  predicate Subsequence(xs: seq<SessionId>, ys: seq<SessionId>)
    decreases |ys|
  {
    if |xs| == 0 then true
    else if |ys| == 0 then false
    else if xs[0] == ys[0] then Subsequence(xs[1..], ys[1..])
    else Subsequence(xs, ys[1..])
  }

  lemma {:induction false} SubsequenceDrop(xs: seq<SessionId>, ys: seq<SessionId>)
    requires |xs| > 0 && Subsequence(xs, ys)
    ensures Subsequence(xs[1..], ys)
    decreases |ys|, 0
  {
    if xs[0] != ys[0] {
      SubsequenceDrop(xs, ys[1..]);
      SubsequenceExtend(xs[1..], ys[1..], ys[0]);
    } else {
      SubsequenceExtend(xs[1..], ys[1..], ys[0]);
      assert ys == [ys[0]] + ys[1..];
    }
  }

  lemma {:induction false} SubsequenceExtend(xs: seq<SessionId>, ys: seq<SessionId>, y: SessionId)
    requires Subsequence(xs, ys)
    ensures Subsequence(xs, [y] + ys)
    decreases |ys|, 1
  {
    if |xs| > 0 {
      assert ([y] + ys)[1..] == ys;
      if xs[0] == y {
        SubsequenceDrop(xs, ys);
      }
    }
  }

  /** The session each delivery went to, in sending order. */
  function Recipients(ds: seq<Delivery>): (ids: seq<SessionId>)
    ensures |ids| == |ds| && forall k :: 0 <= k < |ds| ==> ids[k] == ds[k].session
  {
    seq(|ds|, k requires 0 <= k < |ds| => ds[k].session)
  }

  /** The table after a broadcast: same sessions in the same order, and
      exactly the failing targets cleared. */
  predicate ClearsFailing(t: Table, failing: set<SessionId>, t': Table)
  {
    && |t'| == |t|
    && (forall i :: 0 <= i < |t| ==> t'[i].id == t[i].id)
    && (forall i :: 0 <= i < |t| ==>
          t'[i].target == (if Fails(t[i], failing) then None else t[i].target))
  }

  /** Every healthy target is sent the data. */
  predicate ReachesHealthy(t: Table, data: seq<Byte>, failing: set<SessionId>, sent: seq<Delivery>)
  {
    forall i :: 0 <= i < |t| && Healthy(t[i], failing) ==>
      Delivery(t[i].id, t[i].target.value.endpoint, data) in sent
  }

  /** Nothing is sent except the data to a healthy target. */
  predicate OnlyHealthy(t: Table, data: seq<Byte>, failing: set<SessionId>, sent: seq<Delivery>)
  {
    forall d :: d in sent ==>
      (exists i :: 0 <= i < |t| && Healthy(t[i], failing) &&
                   d == Delivery(t[i].id, t[i].target.value.endpoint, data))
  }

  /** What a broadcast over `t` promises of its outcome `r` (the new table
      and the datagrams sent): the failing targets are cleared and nothing
      else changes, every healthy target and nothing else is sent the data,
      and sends follow table order. */
  predicate Broadcasted(t: Table, data: seq<Byte>, failing: set<SessionId>, r: (Table, seq<Delivery>))
  {
    && ClearsFailing(t, failing, r.0)
    && ReachesHealthy(t, data, failing, r.1)
    && OnlyHealthy(t, data, failing, r.1)
    && Subsequence(Recipients(r.1), Ids(t))
  }

  /** `__broadcast_data`: send the datagram to every entry with a target,
      in table order; an entry whose send fails has its target closed and
      cleared and the walk continues with the next entry. */
  function Broadcast(t: Table, data: seq<Byte>, failing: set<SessionId>): (r: (Table, seq<Delivery>))
    ensures Broadcasted(t, data, failing, r)
  {
    if |t| == 0 then ([], [])
    else
      var (rest, sent) := Broadcast(t[1..], data, failing);
      BroadcastStep(t, data, failing, rest, sent);
      BroadcastHead(t[0], data, failing, rest, sent)
  }

  /** One entry of the walk, in front of the outcome for the entries after it. */
  function BroadcastHead(e: Entry, data: seq<Byte>, failing: set<SessionId>,
                         rest: Table, sent: seq<Delivery>): (Table, seq<Delivery>)
  {
    if Healthy(e, failing) then ([e] + rest, [Delivery(e.id, e.target.value.endpoint, data)] + sent)
    else if Fails(e, failing) then ([e.(target := None)] + rest, sent)
    else ([e] + rest, sent)
  }

  lemma {:induction false} BroadcastStep(t: Table, data: seq<Byte>, failing: set<SessionId>,
                      rest: Table, sent: seq<Delivery>)
    requires |t| > 0 && Broadcasted(t[1..], data, failing, (rest, sent))
    ensures Broadcasted(t, data, failing, BroadcastHead(t[0], data, failing, rest, sent))
  {
    var r := BroadcastHead(t[0], data, failing, rest, sent);
    StepClears(t, failing, rest, r.0);
    StepReaches(t, data, failing, sent, r.1);
    SentFromTail(t, data, failing, sent);
    StepOrder(t, data, failing, sent, r.1);
  }

  lemma {:induction false} StepClears(t: Table, failing: set<SessionId>, rest: Table, t': Table)
    requires |t| > 0 && ClearsFailing(t[1..], failing, rest)
    requires t' == (if Fails(t[0], failing) then [t[0].(target := None)] else [t[0]]) + rest
    ensures ClearsFailing(t, failing, t')
  {
    forall i | 1 <= i < |t| ensures t'[i] == rest[i - 1] && t[i] == t[1..][i - 1] {}
  }

  lemma {:induction false} StepReaches(t: Table, data: seq<Byte>, failing: set<SessionId>, sent: seq<Delivery>, all: seq<Delivery>)
    requires |t| > 0 && ReachesHealthy(t[1..], data, failing, sent)
    requires all == (if Healthy(t[0], failing) then [Delivery(t[0].id, t[0].target.value.endpoint, data)] else []) + sent
    ensures ReachesHealthy(t, data, failing, all)
  {
    forall i | 1 <= i < |t| && Healthy(t[i], failing)
      ensures Delivery(t[i].id, t[i].target.value.endpoint, data) in all
    {
      assert t[i] == t[1..][i - 1];
    }
  }

  lemma {:induction false} StepOrder(t: Table, data: seq<Byte>, failing: set<SessionId>, sent: seq<Delivery>, all: seq<Delivery>)
    requires |t| > 0 && Subsequence(Recipients(sent), Ids(t[1..]))
    requires all == (if Healthy(t[0], failing) then [Delivery(t[0].id, t[0].target.value.endpoint, data)] else []) + sent
    ensures Subsequence(Recipients(all), Ids(t))
  {
    var e := t[0];
    assert Ids(t) == [e.id] + Ids(t[1..]);
    SubsequenceExtend(Recipients(sent), Ids(t[1..]), e.id);
    if Healthy(e, failing) {
      assert Recipients(all) == [e.id] + Recipients(sent);
    } else {
      assert all == sent;
    }
  }

  /** A delivery owed to a healthy session of the tail is owed to the same
      session of the whole table. */
  lemma {:induction false} SentFromTail(t: Table, data: seq<Byte>, failing: set<SessionId>, sent: seq<Delivery>)
    requires |t| > 0 && OnlyHealthy(t[1..], data, failing, sent)
    ensures OnlyHealthy(t, data, failing, sent)
    ensures Healthy(t[0], failing) ==>
      OnlyHealthy(t, data, failing, [Delivery(t[0].id, t[0].target.value.endpoint, data)] + sent)
  {
    forall d | d in sent
      ensures exists i :: 0 <= i < |t| && Healthy(t[i], failing) &&
                          d == Delivery(t[i].id, t[i].target.value.endpoint, data)
    {
      var j :| 0 <= j < |t[1..]| && Healthy(t[1..][j], failing) &&
               d == Delivery(t[1..][j].id, t[1..][j].target.value.endpoint, data);
      assert t[j + 1] == t[1..][j];
    }
  }

  /** Fan-out isolation: whichever targets fail, every healthy target gets
      exactly the frame's bytes, and nothing else in the table changes but
      the failed targets being cleared. */
  lemma {:induction false} BroadcastIsolation(t: Table, data: seq<Byte>, failing: set<SessionId>, i: nat)
    requires i < |t| && Healthy(t[i], failing)
    ensures var (t', sent) := Broadcast(t, data, failing);
            && Delivery(t[i].id, t[i].target.value.endpoint, data) in sent
            && t'[i] == t[i]
            && Ids(t') == Ids(t)
  {
  }

  /** The datagrams one session received, in order. */
  function DataTo(ds: seq<Delivery>, id: SessionId): seq<seq<Byte>>
  {
    if |ds| == 0 then []
    else (if ds[0].session == id then [ds[0].data] else []) + DataTo(ds[1..], id)
  }

  lemma {:induction false} DataToAppend(a: seq<Delivery>, b: seq<Delivery>, id: SessionId)
    ensures DataTo(a + b, id) == DataTo(a, id) + DataTo(b, id)
  {
    if |a| > 0 {
      assert (a + b)[0] == a[0];
      assert (a + b)[1..] == a[1..] + b;
      DataToAppend(a[1..], b, id);
    } else {
      assert a + b == b;
    }
  }

  /** The frames of one batch, broadcast one after another; `failing[k]`
      says which transports fail while frame k is sent. */
  function Fanout(t: Table, frames: seq<seq<Byte>>, failing: seq<set<SessionId>>): (r: (Table, seq<Delivery>))
    requires |failing| == |frames|
    ensures Ids(r.0) == Ids(t)
    decreases |frames|
  {
    if |frames| == 0 then (t, [])
    else
      var (t1, sent) := Broadcast(t, frames[0], failing[0]);
      var (t2, more) := Fanout(t1, frames[1..], failing[1..]);
      (t2, sent + more)
  }

  predicate NoTarget(t: Table, id: SessionId) {
    forall i :: 0 <= i < |t| && t[i].id == id ==> t[i].target.None?
  }

  lemma {:induction false} BroadcastTo(t: Table, data: seq<Byte>, failing: set<SessionId>, id: SessionId)
    requires Distinct(t)
    ensures var (t', sent) := Broadcast(t, data, failing);
            || (DataTo(sent, id) == [data])
            || (DataTo(sent, id) == [] && NoTarget(t', id))
  {
    if |t| > 0 {
      var (rest, sent) := Broadcast(t[1..], data, failing);
      assert Broadcast(t, data, failing) == BroadcastHead(t[0], data, failing, rest, sent);
      if t[0].id == id {
        assert NoTarget(t[1..], id);
        NoTargetNothing(t[1..], data, failing, id);
      } else {
        BroadcastTo(t[1..], data, failing, id);
      }
      HeadTo(t[0], data, failing, rest, sent, id);
    }
  }

  /** What one step of the walk adds for session `id`. */
  lemma {:induction false} HeadTo(e: Entry, data: seq<Byte>, failing: set<SessionId>,
                                  rest: Table, sent: seq<Delivery>, id: SessionId)
    ensures var (t', all) := BroadcastHead(e, data, failing, rest, sent);
            && DataTo(all, id) == (if e.id == id && Healthy(e, failing) then [data] else []) + DataTo(sent, id)
            && (NoTarget(rest, id) && (e.id == id ==> !Healthy(e, failing)) ==> NoTarget(t', id))
  {
    var (t', all) := BroadcastHead(e, data, failing, rest, sent);
    if Healthy(e, failing) {
      assert all[1..] == sent;
    }
    if NoTarget(rest, id) && (e.id == id ==> !Healthy(e, failing)) {
      forall i | 0 <= i < |t'| && t'[i].id == id ensures t'[i].target.None? {
        if i > 0 {
          assert t'[i] == rest[i - 1];
        }
      }
    }
  }

  lemma {:induction false} NoTargetNothing(t: Table, data: seq<Byte>, failing: set<SessionId>, id: SessionId)
    requires NoTarget(t, id)
    ensures DataTo(Broadcast(t, data, failing).1, id) == []
    ensures NoTarget(Broadcast(t, data, failing).0, id)
  {
    if |t| > 0 {
      NoTargetNothing(t[1..], data, failing, id);
    }
  }

  /** A broadcast keeps the session ids, so it keeps them distinct. */
  lemma {:induction false} BroadcastDistinct(t: Table, data: seq<Byte>, failing: set<SessionId>)
    requires Distinct(t)
    ensures Distinct(Broadcast(t, data, failing).0)
  {
    var t' := Broadcast(t, data, failing).0;
    assert ClearsFailing(t, failing, t');
  }

  /** Per-target ordering: what any one session receives from a batch is a
      prefix of the batch's frames in chunk order — all of them, or the
      ones before its transport failed. */
  lemma {:induction false} FanoutInOrder(t: Table, frames: seq<seq<Byte>>,
                                         failing: seq<set<SessionId>>, id: SessionId)
    requires Distinct(t)
    requires |failing| == |frames|
    ensures exists k :: 0 <= k <= |frames| && DataTo(Fanout(t, frames, failing).1, id) == frames[..k]
    decreases |frames|
  {
    if |frames| == 0 {
      assert DataTo([], id) == frames[..0];
    } else {
      var (t1, sent) := Broadcast(t, frames[0], failing[0]);
      var (t2, more) := Fanout(t1, frames[1..], failing[1..]);
      assert Fanout(t, frames, failing).1 == sent + more;
      DataToAppend(sent, more, id);
      BroadcastTo(t, frames[0], failing[0], id);
      if DataTo(sent, id) == [frames[0]] {
        BroadcastDistinct(t, frames[0], failing[0]);
        FanoutInOrder(t1, frames[1..], failing[1..], id);
        var k :| 0 <= k <= |frames| - 1 && DataTo(more, id) == frames[1..][..k];
        assert [frames[0]] + frames[1..][..k] == frames[..k + 1];
        assert DataTo(sent + more, id) == frames[..k + 1];
      } else {
        FanoutNothing(t1, frames[1..], failing[1..], id);
        assert DataTo(sent + more, id) == frames[..0];
      }
    }
  }

  lemma {:induction false} FanoutNothing(t: Table, frames: seq<seq<Byte>>, failing: seq<set<SessionId>>, id: SessionId)
    requires NoTarget(t, id)
    requires |failing| == |frames|
    ensures DataTo(Fanout(t, frames, failing).1, id) == []
    decreases |frames|
  {
    if |frames| > 0 {
      var (t1, sent) := Broadcast(t, frames[0], failing[0]);
      NoTargetNothing(t, frames[0], failing[0], id);
      FanoutNothing(t1, frames[1..], failing[1..], id);
      DataToAppend(sent, Fanout(t1, frames[1..], failing[1..]).1, id);
    }
  }
}

=== FILE: text.dfy ===
/** The string operations the command protocol is built from: ASCII
    lower-casing, whitespace stripping, separator splitting, and Python's
    decimal `int()` conversion together with `str()` of an integer. */
module Text {
  import opened Wrappers

  /** The two whitespace classes Python uses on an ASCII `str`: `int()`
      strips space and `\t \n \v \f \r` only, while `str.strip()` also
      strips the four separator controls 0x1C..0x1F. */
  datatype Blanks = IntBlanks | StrBlanks

  predicate IsBlank(c: char, b: Blanks) {
    c == ' ' || 9 <= c as int <= 13 || (b == StrBlanks && 28 <= c as int <= 31)
  }

  /** Whitespace as `str.strip()` sees it. */
  predicate IsSpace(c: char) {
    IsBlank(c, StrBlanks)
  }

  predicate IsDigit(c: char) {
    '0' <= c <= '9'
  }

  predicate IsUpper(c: char) {
    'A' <= c <= 'Z'
  }

  predicate IsAscii(s: string) {
    forall c :: c in s ==> c as int < 128
  }

  /** `bytes.lower()`: only the ASCII capitals change. */
  function LowerChar(c: char): char {
    if IsUpper(c) then (c as int + 32) as char else c
  }

  function Lower(s: string): (r: string)
    ensures |r| == |s|
    ensures forall i :: 0 <= i < |s| ==> r[i] == LowerChar(s[i])
  {
    seq(|s|, i requires 0 <= i < |s| => LowerChar(s[i]))
  }

  /** A string without ASCII capitals is its own lower-case form. */
  lemma {:induction false} LowerIdentity(s: string)
    requires forall c :: c in s ==> !IsUpper(c)
    ensures Lower(s) == s
  {
    assert forall i :: 0 <= i < |s| ==> s[i] in s;
  }

  function TrimStart(s: string, b: Blanks): (r: string)
    ensures |r| <= |s| && r == s[|s| - |r|..]
    ensures forall i :: 0 <= i < |s| - |r| ==> IsBlank(s[i], b)
    ensures r == [] || !IsBlank(r[0], b)
    decreases |s|
  {
    if |s| > 0 && IsBlank(s[0], b) then TrimStart(s[1..], b) else s
  }

  function TrimEnd(s: string, b: Blanks): (r: string)
    ensures |r| <= |s| && r == s[..|r|]
    ensures forall i :: |r| <= i < |s| ==> IsBlank(s[i], b)
    ensures r == [] || !IsBlank(r[|r| - 1], b)
    decreases |s|
  {
    if |s| > 0 && IsBlank(s[|s| - 1], b) then TrimEnd(s[..|s| - 1], b) else s
  }

  /** Both ends trimmed of one whitespace class. */
  function StripBlanks(s: string, b: Blanks): string {
    TrimEnd(TrimStart(s, b), b)
  }

  /** `str.strip()` with no argument. */
  function Strip(s: string): string {
    StripBlanks(s, StrBlanks)
  }

  /** Stripping removes exactly the surrounding whitespace: a string whose
      first and last characters are not whitespace survives a trailing
      newline being stripped off. */
  lemma {:induction false} StripNewline(s: string, b: Blanks)
    requires |s| > 0 && !IsBlank(s[0], b) && !IsBlank(s[|s| - 1], b)
    ensures StripBlanks(s + "\n", b) == s
    ensures StripBlanks(s, b) == s
  {
    var t := s + "\n";
    assert t[0] == s[0];
    assert TrimStart(t, b) == t;
    assert t[..|t| - 1] == s;
    assert TrimEnd(t, b) == TrimEnd(s, b);
  }

  /** A line made only of whitespace strips to the empty string. */
  lemma {:induction false} StripBlank(s: string)
    requires forall i :: 0 <= i < |s| ==> IsSpace(s[i])
    ensures Strip(s) == ""
    decreases |s|
  {
    if |s| > 0 {
      StripBlank(s[1..]);
    }
  }

  /** Python's `sep.join(parts)` for a one-character separator. */
  function Join(parts: seq<string>, sep: char): string
  {
    if |parts| == 0 then ""
    else if |parts| == 1 then parts[0]
    else parts[0] + [sep] + Join(parts[1..], sep)
  }

  /** Joining a part in front of at least one more part inserts one separator. */
  lemma {:induction false} JoinCons(p: string, rest: seq<string>, sep: char)
    requires |rest| >= 1
    ensures Join([p] + rest, sep) == p + [sep] + Join(rest, sep)
  {
    assert ([p] + rest)[1..] == rest;
  }

  function FirstIndex(s: string, c: char): (i: nat)
    requires c in s
    ensures i < |s| && s[i] == c
    ensures forall j :: 0 <= j < i ==> s[j] != c
  {
    if s[0] == c then 0 else FirstIndex(s[1..], c) + 1
  }

  /** Python's `s.split(sep)` for a one-character separator: every
      occurrence splits, so there is always one more part than separators,
      no part contains the separator, and joining the parts gives `s` back. */
  function Split(s: string, sep: char): (parts: seq<string>)
    ensures |parts| >= 1
    ensures forall i :: 0 <= i < |parts| ==> sep !in parts[i]
    ensures Join(parts, sep) == s
    decreases |s|
  {
    if sep !in s then [s]
    else
      var i := FirstIndex(s, sep);
      var rest := Split(s[i + 1..], sep);
      assert ([s[..i]] + rest)[1..] == rest;
      assert s == s[..i] + [sep] + s[i + 1..];
      [s[..i]] + rest
  }

  lemma {:induction false} FirstIndexUnique(s: string, c: char, k: nat)
    requires k < |s| && s[k] == c
    requires forall j :: 0 <= j < k ==> s[j] != c
    ensures FirstIndex(s, c) == k
  {
  }

  /** Split inverts Join: parts free of the separator come back unchanged. */
  lemma {:induction false} SplitJoin(parts: seq<string>, sep: char)
    requires |parts| >= 1
    requires forall i :: 0 <= i < |parts| ==> sep !in parts[i]
    ensures Split(Join(parts, sep), sep) == parts
    decreases |parts|
  {
    if |parts| > 1 {
      var rest := parts[1..];
      var s := Join(parts, sep);
      assert s == parts[0] + [sep] + Join(rest, sep);
      SplitFirst(parts[0], sep, Join(rest, sep));
      SplitJoin(rest, sep);
      assert parts == [parts[0]] + rest;
    }
  }

  /** The first separator cuts off the first part. */
  lemma {:induction false} SplitFirst(p: string, sep: char, tail: string)
    requires sep !in p
    ensures Split(p + [sep] + tail, sep) == [p] + Split(tail, sep)
  {
    var s := p + [sep] + tail;
    var k := |p|;
    assert s[k] == sep;
    assert s[..k] == p;
    assert s[k + 1..] == tail;
    assert forall j :: 0 <= j < k ==> s[j] != sep by {
      forall j | 0 <= j < k ensures s[j] != sep {
        assert s[j] == p[j];
      }
    }
    FirstIndexUnique(s, sep, k);
  }

  function DigitChar(d: nat): (c: char)
    requires d < 10
    ensures IsDigit(c)
  {
    ('0' as int + d) as char
  }

  function DigitValue(c: char): (d: nat)
    requires IsDigit(c)
    ensures d < 10
  {
    c as int - '0' as int
  }

  /** `str(n)` of a non-negative integer: decimal, no leading zeros. */
  function NatToString(n: nat): (r: string)
    ensures |r| >= 1
    ensures forall i :: 0 <= i < |r| ==> IsDigit(r[i])
  {
    if n < 10 then [DigitChar(n)] else NatToString(n / 10) + [DigitChar(n % 10)]
  }

  /** `str(n)` of any integer. */
  function IntToString(n: int): string {
    if n < 0 then "-" + NatToString(-n) else NatToString(n)
  }

  /** Python's decimal digit string: a digit, then digits each optionally
      preceded by one underscore (`1_000` is accepted, `1__0`, `_1`, `1_`
      are not). */
  predicate IsDigitRun(d: string)
    decreases |d|
  {
    && |d| > 0
    && IsDigit(d[|d| - 1])
    && (|| |d| == 1
        || IsDigitRun(d[..|d| - 1])
        || (|d| >= 3 && d[|d| - 2] == '_' && IsDigitRun(d[..|d| - 2])))
  }

  /** The value of a digit run, underscores ignored. */
  function DigitRunValue(d: string): nat
    decreases |d|
  {
    if |d| == 0 then 0
    else if IsDigit(d[|d| - 1]) then 10 * DigitRunValue(d[..|d| - 1]) + DigitValue(d[|d| - 1])
    else DigitRunValue(d[..|d| - 1])
  }

  /** Python's `int(s)` (base 10): surrounding whitespace of its own, narrower
      class (`IntBlanks`), an optional sign, then a digit run; anything else
      raises, modelled as `None`. */
  function ParseInt(s: string): (r: Option<int>)
    ensures (forall i :: 0 <= i < |s| ==> !IsDigit(s[i])) ==> r == None
  {
    var t := StripBlanks(s, IntBlanks);
    NoDigitNoRun(s);
    if |t| > 0 && (t[0] == '+' || t[0] == '-') then
      if IsDigitRun(t[1..]) then
        var v: int := DigitRunValue(t[1..]);
        Some(if t[0] == '-' then -v else v)
      else None
    else if IsDigitRun(t) then Some(DigitRunValue(t))
    else None
  }

  lemma {:induction false} NatToStringDigits(n: nat)
    ensures IsDigitRun(NatToString(n))
    ensures DigitRunValue(NatToString(n)) == n
  {
    if n >= 10 {
      var p := NatToString(n / 10);
      var r := NatToString(n);
      assert r == p + [DigitChar(n % 10)];
      assert r[..|r| - 1] == p;
      NatToStringDigits(n / 10);
    }
  }

  /** `int(str(n)) == n`: the integer conversion inverts printing. */
  lemma {:induction false} ParseIntToString(n: int)
    ensures ParseInt(IntToString(n)) == Some(n)
  {
    NatToStringDigits(if n < 0 then -n else n);
    SignedRun(NatToString(if n < 0 then -n else n), n < 0);
  }

  /** A digit run, with a minus sign or without, converts to its value. */
  lemma {:induction false} SignedRun(d: string, neg: bool)
    requires IsDigitRun(d)
    ensures ParseInt(if neg then "-" + d else d) ==
            Some(if neg then -(DigitRunValue(d) as int) else DigitRunValue(d) as int)
  {
    if neg {
      NegativeRun(d);
    } else {
      PositiveRun(d);
    }
  }

  lemma {:induction false} NegativeRun(d: string)
    requires IsDigitRun(d)
    ensures ParseInt("-" + d) == Some(-(DigitRunValue(d) as int))
  {
    SignedRunUnpadded(d, true);
    var t := StripBlanks("-" + d, IntBlanks);
    assert t[0] == '-' && t[1..] == d;
  }

  lemma {:induction false} PositiveRun(d: string)
    requires IsDigitRun(d)
    ensures ParseInt(d) == Some(DigitRunValue(d) as int)
  {
    SignedRunUnpadded(d, false);
    DigitRunChars(d);
    assert !(d[0] == '+' || d[0] == '-');
  }

  /** `int()` finds nothing to strip around a signed digit run. */
  lemma {:induction false} SignedRunUnpadded(d: string, neg: bool)
    requires IsDigitRun(d)
    ensures var s := if neg then "-" + d else d;
            StripBlanks(s, IntBlanks) == s
  {
    var s := if neg then "-" + d else d;
    DigitRunChars(d);
    assert s[|s| - 1] == d[|d| - 1];
    StripNewline(s, IntBlanks);
  }

  /** A digit run is made of digits and underscores only. */
  lemma {:induction false} DigitRunChars(d: string)
    requires IsDigitRun(d)
    ensures forall i :: 0 <= i < |d| ==> IsDigit(d[i]) || d[i] == '_'
    decreases |d|
  {
    if |d| > 1 {
      if IsDigitRun(d[..|d| - 1]) {
        DigitRunChars(d[..|d| - 1]);
        assert forall i :: 0 <= i < |d| - 1 ==> d[i] == d[..|d| - 1][i];
      } else {
        DigitRunChars(d[..|d| - 2]);
        assert forall i :: 0 <= i < |d| - 2 ==> d[i] == d[..|d| - 2][i];
      }
    }
  }

  /** The separator controls 0x1C..0x1F, which `str.strip()` removes and
      `int()` does not. */
  predicate IsSeparator(c: char) {
    28 <= c as int <= 31
  }

  /** `int()` raises on text holding a separator control anywhere: at the
      ends it is not stripped, and inside it is no digit. */
  lemma {:induction false} SeparatorRejected(s: string, k: nat)
    requires k < |s| && IsSeparator(s[k])
    ensures ParseInt(s) == None
  {
    var front := TrimStart(s, IntBlanks);
    var t := StripBlanks(s, IntBlanks);
    var lead := |s| - |front|;
    assert k >= lead;
    assert t == front[..|t|];
    assert front[k - lead] == s[k];
    assert k - lead < |t|;
    var j := k - lead;
    assert t[j] == s[k];
    if IsDigitRun(t) {
      DigitRunChars(t);
      assert false;
    }
    if |t| > 0 && IsDigitRun(t[1..]) {
      DigitRunChars(t[1..]);
      assert j == 0 ==> !(t[0] == '+' || t[0] == '-');
    }
  }

  /** `int('\x1c5')` raises: a digit run behind a separator control is an
      error to `int()`. */
  lemma {:induction false} SeparatorPaddedNumber(d: string)
    requires IsDigitRun(d)
    ensures ParseInt([28 as char] + d) == None
  {
    var s := [28 as char] + d;
    assert IsSeparator(s[0]);
    SeparatorRejected(s, 0);
  }

  /** `'\x1c5'.strip()` is `'5'`: `str.strip()` removes the control and
      leaves the number. */
  lemma {:induction false} SeparatorStripped(d: string)
    requires IsDigitRun(d)
    ensures Strip([28 as char] + d) == d
  {
    DigitRunChars(d);
    StripLeadingBlank(28 as char, d, StrBlanks);
    StripNewline(d, StrBlanks);
  }

  /** A leading whitespace character is stripped away. */
  lemma {:induction false} StripLeadingBlank(c: char, d: string, b: Blanks)
    requires IsBlank(c, b)
    ensures StripBlanks([c] + d, b) == StripBlanks(d, b)
  {
    assert ([c] + d)[1..] == d;
  }

  /** Without a digit, neither the stripped text nor its unsigned part is
      a digit run. */
  lemma {:induction false} NoDigitNoRun(s: string)
    ensures var t := StripBlanks(s, IntBlanks);
      (forall i :: 0 <= i < |s| ==> !IsDigit(s[i])) ==>
        && !IsDigitRun(t)
        && (|t| > 0 ==> !IsDigitRun(t[1..]))
  {
    var t := StripBlanks(s, IntBlanks);
    if !(forall i :: 0 <= i < |s| ==> !IsDigit(s[i])) {
    } else if |t| > 0 {
      var front := TrimStart(s, IntBlanks);
      assert t == front[..|t|];
      assert front == s[|s| - |front|..];
      var k := |s| - |front| + |t| - 1;
      assert t[|t| - 1] == s[k];
      NoFinalDigit(t);
      if |t| >= 2 {
        assert t[1..][|t| - 2] == t[|t| - 1];
      }
      NoFinalDigit(t[1..]);
    } else {
      NoFinalDigit(t);
    }
  }

  /** A digit run ends in a digit. */
  lemma {:induction false} NoFinalDigit(d: string)
    requires |d| == 0 || !IsDigit(d[|d| - 1])
    ensures !IsDigitRun(d)
  {
  }
}

=== FILE: wire.dfy ===
/** The datagram layout shared by server and client: `struct.pack('=sqqqii')`
    followed by the raw I/Q bytes. Native byte order is fixed to
    little-endian here. */
module Wire {

  type Byte = b: int | 0 <= b < 256

  function Pow256(k: nat): (p: nat)
    ensures p >= 1
  {
    if k == 0 then 1 else 256 * Pow256(k - 1)
  }

  lemma Pow256Values()
    ensures Pow256(2) == 0x1_0000
    ensures Pow256(4) == 0x1_0000_0000
    ensures Pow256(8) == 0x1_0000_0000_0000_0000
  {
    assert Pow256(1) == 256;
    assert Pow256(2) == 0x1_0000;
    assert Pow256(3) == 0x100_0000;
    assert Pow256(4) == 0x1_0000_0000;
    assert Pow256(5) == 0x100_0000_0000;
    assert Pow256(6) == 0x1_0000_0000_0000;
    assert Pow256(7) == 0x100_0000_0000_0000;
  }

  /** Little-endian unsigned value of a byte string. */
  function Unsigned(bs: seq<Byte>): (u: nat)
    ensures u < Pow256(|bs|)
  {
    if |bs| == 0 then 0 else bs[0] + 256 * Unsigned(bs[1..])
  }

  /** The `k` little-endian bytes of `u`; reading them back gives `u`. */
  function LittleEndian(u: nat, k: nat): (bs: seq<Byte>)
    requires u < Pow256(k)
    ensures |bs| == k
    ensures Unsigned(bs) == u
  {
    if k == 0 then []
    else
      var rest := LittleEndian(u / 256, k - 1);
      assert ([(u % 256) as Byte] + rest)[1..] == rest;
      [(u % 256) as Byte] + rest
  }

  /** Bytes are determined by their value: writing back what was read
      reproduces the bytes. */
  lemma {:induction false} LittleEndianUnsigned(bs: seq<Byte>)
    ensures LittleEndian(Unsigned(bs), |bs|) == bs
  {
    if |bs| > 0 {
      var u := Unsigned(bs);
      assert u % 256 == bs[0];
      assert u / 256 == Unsigned(bs[1..]);
      LittleEndianUnsigned(bs[1..]);
      assert bs == [bs[0]] + bs[1..];
    }
  }

  /** Two's-complement range of a `k`-byte signed field. */
  predicate InSigned(x: int, k: nat) {
    k > 0 && -(Pow256(k) / 2) <= x < Pow256(k) / 2
  }

  /** Two's-complement reading of a little-endian field. */
  function ToSigned(bs: seq<Byte>): int {
    var u := Unsigned(bs);
    if |bs| > 0 && u >= Pow256(|bs|) / 2 then u - Pow256(|bs|) else u
  }

  /** Two's-complement writing; reading back gives the value. */
  function FromSigned(x: int, k: nat): (bs: seq<Byte>)
    requires InSigned(x, k)
    ensures |bs| == k
    ensures ToSigned(bs) == x
  {
    LittleEndian(if x < 0 then x + Pow256(k) else x, k)
  }

  lemma {:induction false} FromSignedToSigned(bs: seq<Byte>)
    requires |bs| > 0
    ensures InSigned(ToSigned(bs), |bs|)
    ensures FromSigned(ToSigned(bs), |bs|) == bs
  {
    var p := Pow256(|bs|);
    var half := 128 * Pow256(|bs| - 1);
    assert p == 2 * half;
    assert p / 2 == half;
    var u := Unsigned(bs);
    var x := ToSigned(bs);
    assert x == if u >= half then u - p else u;
    assert (if x < 0 then x + p else x) == u;
    LittleEndianUnsigned(bs);
  }

  /** Frame header fields, in `'=sqqqii'` order. */
  datatype Header = Header(
    marker: Byte,
    frequency: int,
    bandwidth: int,
    samplingRate: int,
    attenuation: int,
    count: int)

  const HeaderSize: nat := 33
  /** The frame marker `b'#'`. */
  const Marker: Byte := 35

  /** What `struct.pack` accepts without raising `struct.error`: three
      signed 64-bit and two signed 32-bit fields. */
  predicate Packable(h: Header) {
    && InSigned(h.frequency, 8)
    && InSigned(h.bandwidth, 8)
    && InSigned(h.samplingRate, 8)
    && InSigned(h.attenuation, 4)
    && InSigned(h.count, 4)
  }

  /** Bounds of the 64-bit and 32-bit header fields, written out. */
  lemma {:induction false} PackableBounds(h: Header)
    ensures Packable(h) <==>
      && -0x8000_0000_0000_0000 <= h.frequency < 0x8000_0000_0000_0000
      && -0x8000_0000_0000_0000 <= h.bandwidth < 0x8000_0000_0000_0000
      && -0x8000_0000_0000_0000 <= h.samplingRate < 0x8000_0000_0000_0000
      && -0x8000_0000 <= h.attenuation < 0x8000_0000
      && -0x8000_0000 <= h.count < 0x8000_0000
  {
    Pow256Values();
  }

  /** `struct.pack('=sqqqii', ...)`: 1 + 3*8 + 2*4 = 33 bytes, no padding. */
  function EncodeHeader(h: Header): (bs: seq<Byte>)
    requires Packable(h)
    ensures |bs| == HeaderSize
    ensures bs[0] == h.marker
  {
    [h.marker]
      + FromSigned(h.frequency, 8)
      + FromSigned(h.bandwidth, 8)
      + FromSigned(h.samplingRate, 8)
      + FromSigned(h.attenuation, 4)
      + FromSigned(h.count, 4)
  }

  /** `struct.unpack('=sqqqii', bs)`, defined on exactly 33 bytes. */
  function DecodeHeader(bs: seq<Byte>): Header
    requires |bs| == HeaderSize
  {
    Header(
      bs[0],
      ToSigned(bs[1..9]),
      ToSigned(bs[9..17]),
      ToSigned(bs[17..25]),
      ToSigned(bs[25..29]),
      ToSigned(bs[29..33]))
  }

  /** Unpacking a packed header gives every field back exactly. */
  lemma {:induction false} DecodeEncodeHeader(h: Header)
    requires Packable(h)
    ensures DecodeHeader(EncodeHeader(h)) == h
  {
    var bs := EncodeHeader(h);
    assert bs[1..9] == FromSigned(h.frequency, 8);
    assert bs[9..17] == FromSigned(h.bandwidth, 8);
    assert bs[17..25] == FromSigned(h.samplingRate, 8);
    assert bs[25..29] == FromSigned(h.attenuation, 4);
    assert bs[29..33] == FromSigned(h.count, 4);
  }

  /** And every 33-byte string is the packing of the header it unpacks to. */
  lemma {:induction false} EncodeDecodeHeader(bs: seq<Byte>)
    requires |bs| == HeaderSize
    ensures Packable(DecodeHeader(bs))
    ensures EncodeHeader(DecodeHeader(bs)) == bs
  {
    FromSignedToSigned(bs[1..9]);
    FromSignedToSigned(bs[9..17]);
    FromSignedToSigned(bs[17..25]);
    FromSignedToSigned(bs[25..29]);
    FromSignedToSigned(bs[29..33]);
    assert bs == [bs[0]] + bs[1..9] + bs[9..17] + bs[17..25] + bs[25..29] + bs[29..33];
  }

  /** `struct.unpack('=<n>h', raw)`: consecutive signed 16-bit values. */
  function Int16s(raw: seq<Byte>): (xs: seq<int>)
    requires |raw| % 2 == 0
    ensures 2 * |xs| == |raw|
    ensures forall i :: 0 <= i < |xs| ==> -0x8000 <= xs[i] < 0x8000
  {
    Pow256Values();
    seq(|raw| / 2, i requires 0 <= i < |raw| / 2 => ToSigned(raw[2 * i..2 * i + 2]))
  }
}

=== FILE: wrappers.dfy ===
/** Failure-compatible optional values shared by the other modules. */
module Wrappers {

  /** A value that may be absent: the model's stand-in for Python's `None`
      and for calls that raise and are caught. */
  datatype Option<+T> = None | Some(value: T)
}
